=== FILE: README.md ===
# Contact identity reconciliation, modelled in Dafny

This project models the identity-reconciliation engine of a contact service.
`ContactService.identify` receives an observation `(email?, phoneNumber?)` and
does four things:

- it finds the live contacts carrying that email or phone number;
- it maps each match to the root of its group (the primary contact);
- it merges groups when the observation links several of them, keeping the
  earliest-created primary as the winner;
- it appends a new primary or secondary contact when the observation carries
  information the group does not have yet.

It answers with the consolidated group: the primary id, the deduplicated
emails and phone numbers with the primary's own values first, and the
secondary ids.

The model also covers the two request middlewares in front of that endpoint:

- `validateContactInput`: at least one field must be present, and string
  fields must have the email and phone shapes;
- `basicRateLimit`: a per-client fixed-window counter.

The database is an in-memory store, `Store(contacts, nextId)`:

- contacts are kept in insertion order;
- ids come from an autoincrement counter starting at 1;
- `orderBy: { createdAt: 'asc' }` is a stable insertion sort by `createdAt`
  over store order.

`identify` is a pure function from a store, a request and the clock reading
`now` (the `createdAt` of any row it inserts) to `Success(Outcome(store',
response))` or an error. The rate limiter is a pure transition on a
`map<string, Entry>`; the clock and the client key are parameters.

Modules, in dependency order:

- `Wrappers`: `Option`, `Result`.
- `Seqs`: distinctness, first-occurrence order, `Dedup`.
- `Sorting`: the stable sort that models `orderBy createdAt`.
- `Contacts`: contacts, the store, the match and group queries, and the store
  invariant `WellFormed`.
- `Projection`: `buildResponse`.
- `Reconcile`: the helpers of `identify` and `identify` itself.
- `MergeProofs`: the merge loop's updates amount to moving every losing group
  under the winner.
- `IdentifyProofs`: case-by-case correctness of reconciliation.
- `IdentifyLaws`: what a caller of `identify` observes.
- `Validation`: `validateContactInput`.
- `RateLimit`: `basicRateLimit`.

The store invariant `WellFormed` states four things:

- `nextId` is at least 1 and every id lies in `[1, nextId)`;
- ids are unique;
- a live row has a `linkedId` exactly when it is secondary;
- every live secondary links directly to a live primary, so there are no
  chains.

## Model

| member | source | states |
|---|---|---|
| Contacts.OrNull | src/services/contactService.ts:224-225 | `v \|\| null`: the stored value is present exactly when the input is a non-empty string, and then it is the input |
| Contacts.FindExistingContacts | src/services/contactService.ts:57-77 | the result holds exactly the live rows equal on a supplied email or a supplied phone number, in ascending `createdAt` order |
| Contacts.FetchGroup | src/services/contactService.ts:101-112 | the result holds exactly the live rows whose id is the root or whose `linkedId` is the root, in ascending `createdAt` order |
| Contacts.GroupIffRoot | src/services/contactService.ts:86-95 | in a well-formed store, a live row belongs to a primary's group exactly when that primary is the root the row names |
| Contacts.OnePrimaryPerGroup | src/services/contactService.ts:114-116 | in a well-formed store, the only primary row in a primary's group is that primary itself |
| Contacts.LiveRoot | src/services/contactService.ts:89-94 | in a well-formed store, every live row names a root, that root is a live primary, and the row is in the root's group |
| Reconcile.CollectRoots | src/services/contactService.ts:86-95 | the collected ids are duplicate-free, are exactly the roots named by the matched rows, and follow the order in which the matched rows first name them (`Set` insertion order) |
| Reconcile.FindById | src/services/contactService.ts:114 | the lookup finds a row with the requested id exactly when one exists in the group |
| Reconcile.GroupByPrimary | src/services/contactService.ts:97-121 | each group is led by a collected root present in its own member list, and its members are exactly the fetched group of that root |
| Reconcile.GroupByPrimaryComplete | src/services/contactService.ts:100-118 | no root is dropped whose own row the group query returns: that root's group, led by that row, is in the result |
| Reconcile.GroupByPrimaryInRootOrder | src/services/contactService.ts:100-120 | for duplicate-free roots, the groups come out in the order of their roots |
| IdentifyProofs.GroupsOfLiveRoots | src/services/contactService.ts:97-121 | on a store with unique ids where every root is a live primary, there is exactly one group per root, the k-th led by the k-th root, each holding its root's fetched group |
| Reconcile.HasPair | src/services/contactService.ts:132-135 | the exact-match search: true exactly when some member holds both the given email and the given phone number, compared as stored values so that null matches null |
| Reconcile.NeedsNewSecondaryContact | src/services/contactService.ts:126-146 | false when some member holds exactly the requested pair with absent fields read as null; otherwise true exactly when a supplied email or a supplied phone number is missing from the group; when false, the group already holds every supplied field |
| Reconcile.CreatePrimaryContact | src/services/contactService.ts:221-229 | the old rows stay in place as a prefix and exactly one row follows; its id is the autoincrement value, which no row of a well-formed store uses; the row is live, primary and unlinked, holds the supplied fields (falsy ones as null) and is created at `now` |
| Reconcile.CreateSecondaryContact | src/services/contactService.ts:234-247 | the old rows stay in place as a prefix and exactly one row follows, with an id no row of a well-formed store uses; the row is live and secondary, links to the given primary, which stays a live primary, and holds the supplied fields |
| Reconcile.CreatePrimaryPreservesWellFormed | src/services/contactService.ts:221-229 | creating a primary keeps the store invariant, and no existing live row belongs to the new row's group |
| Reconcile.CreateSecondaryPreservesWellFormed | src/services/contactService.ts:234-247 | creating a secondary under a live primary keeps the store invariant |
| Reconcile.MemberUpdates | src/services/contactService.ts:173-181 | exactly the members other than the losing root are relinked to the winner, none is demoted, and no other update is issued |
| Reconcile.LoserUpdates | src/services/contactService.ts:163-183 | every update relinks to the winner; each losing primary is demoted; each non-primary member of a losing group is relinked without demotion; and no other update is issued |
| Reconcile.MergePrimaryGroups | src/services/contactService.ts:151-216 | the merge fails exactly when there is no group to take as winner (the source's `groups[0]` is undefined there); otherwise the winner is the first group, in the given order, whose primary has the least creation time, which is what the stable sort puts first |
| Reconcile.ReconcileContacts | src/services/contactService.ts:17-51 | reconciliation fails, with the no-group error, exactly when some row matches but no collected root yields a group |
| Reconcile.Identify | src/services/contactService.ts:12-14 | `identify` fails with the missing-fields error exactly when neither field is a non-empty string |
| Sorting.SortBy | src/services/contactService.ts:157 | the sorted groups are ordered by primary creation time and are a permutation of the input |
| Sorting.SortByHead | src/services/contactService.ts:157-159 | the head of the stable sort is the first element with the least key, so ties are won by the earlier group |
| Seqs.Dedup | src/services/contactService.ts:261-265 | `Array.from(new Set(xs))`: duplicate-free, the same members as the input, in first-occurrence order |
| Projection.FirstPrimary | src/services/contactService.ts:253-256 | finds the first primary row, and finds none exactly when no row is primary |
| Projection.Emails | src/services/contactService.ts:262-263 | the emails of the rows, position by position |
| Projection.Phones | src/services/contactService.ts:268-269 | the phone numbers of the rows, position by position |
| Projection.ProjectValues | src/services/contactService.ts:260-283 | the listed values are duplicate-free and are exactly the non-null values of the rows; the lead's value comes first when it is present, and the rest keep first-occurrence order |
| Projection.MoveToFrontProjects | src/services/contactService.ts:277-283 | moving the lead value to the front of the deduplicated values yields a list with the projection properties above |
| Projection.OnlyOfDistinct | src/services/contactService.ts:278 | in a duplicate-free list, the comparator sort puts at most the one lead value in front |
| Projection.AllButKeepsOrder | src/services/contactService.ts:278 | the values other than the lead keep their relative order |
| Projection.SecondaryIds | src/services/contactService.ts:258 | the listed ids are exactly the ids of the secondary rows |
| Projection.SecondaryIdsConcat | src/services/contactService.ts:290 | the ids are produced in input order: the list for a concatenation is the concatenation of the lists |
| Projection.SecondaryIdsDistinct | src/services/contactService.ts:258 | rows with pairwise different ids give a secondary id list without repeats |
| Projection.BuildResponse | src/services/contactService.ts:252-293 | fails exactly when no row is primary; otherwise it is led by the first primary, projects emails and phone numbers with that primary's values first, and lists exactly the secondary ids, in row order |
| MergeProofs.ApplyUpdatesPointwise | src/services/contactService.ts:163-181 | applying the sequential updates gives, row by row, their net effect, whatever their order |
| MergeProofs.MergeRewrite | src/services/contactService.ts:163-183 | on a well-formed store the merge updates rehome exactly the live rows of the losing groups under the winner, as secondaries |
| MergeProofs.RehomePreservesWellFormed | src/services/contactService.ts:163-181 | rehoming the losing groups under a live primary that did not lose keeps the store invariant, so no chain arises |
| MergeProofs.RehomedGroup | src/services/contactService.ts:186-197 | after rehoming, a live row is in the winner's group exactly when its root was the winner or a loser |
| IdentifyProofs.MatchedRoots | src/services/contactService.ts:86-95 | every collected root is a live primary; the roots are exactly those of matched rows; every matched row's root is collected |
| IdentifyProofs.ReconcileCorrect | src/services/contactService.ts:17-51 | on a well-formed store the target is a live primary, the store stays well-formed, the target group holds every matching row and the requested fields, and only the stated writes occur |
| IdentifyProofs.ReconcileTarget | src/services/contactService.ts:19-49 | with no match the target is the freshly created id; otherwise it is a matched root whose primary is no younger than any other matched primary; among equally old primaries it is the one whose root was collected first |
| IdentifyLaws.IdentifyOutcome | src/services/contactService.ts:8-52 | on a well-formed store with a supplied field, `identify` is reconciliation followed by the projection of the target group, and never fails |
| IdentifyLaws.IdentifySucceeds | src/services/contactService.ts:8-52 | `identify` succeeds, keeps the store invariant, names a live primary, and every matching row ends in that primary's group |
| IdentifyLaws.IdentifyOnePrimary | src/services/contactService.ts:163-181 | the target group has exactly one primary row, the target itself |
| IdentifyLaws.IdentifyFrame | src/services/contactService.ts:162-213 | the only writes move every live row of another matched group under the target as a secondary and append at most one row: the new primary, or a secondary linked to the target |
| IdentifyLaws.IdentifyNoDuplicatePair | src/services/contactService.ts:131-145 | an appended row never repeats the (email, phone) pair of a live row already in the target group |
| IdentifyLaws.IdentifyPicksOldest | src/services/contactService.ts:156-160 | with no match the response names the fresh id; otherwise it names a matched root whose primary is the earliest-created among the matched roots' primaries; on a tie, the primary whose root the matched rows name first wins |
| IdentifyLaws.IdentifyResponse | src/services/contactService.ts:252-293 | the response lists exactly the emails, phone numbers and secondary ids of the target group in the new store, the emails and phone numbers without duplicates, with the primary's own email and phone number first |
| IdentifyLaws.IdentifySecondaryIds | src/services/contactService.ts:258-290 | the secondary ids are listed once each; when the clock reading is no earlier than any stored row, they are the target group's secondary ids in creation order |
| IdentifyLaws.IdentifyEchoesRequest | src/services/contactService.ts:31-46 | the supplied email is among the response's emails and the supplied phone number among its phone numbers |
| IdentifyLaws.IdentifyNoMatch | src/services/contactService.ts:19-23 | with no matching row, exactly one primary row holding the supplied fields is appended, and the response is that row's id and fields with no secondaries |
| IdentifyLaws.SingletonResponse | src/services/contactService.ts:22 | a lone primary row projects to its own id and non-null fields, with no secondary ids |
| IdentifyLaws.RepeatIsStable | src/services/contactService.ts:28-46 | when every matching row is already in one group holding the requested fields, reconciliation writes nothing and returns that group |
| IdentifyLaws.RepeatWritesNothing | src/services/contactService.ts:28-46 | whatever the two clock readings, repeating a request writes nothing and names the same primary |
| IdentifyLaws.IdentifyIdempotent | src/services/contactService.ts:31-46 | provided the first call's clock reading is no earlier than any stored row, repeating the request at any time leaves the store unchanged and returns the same response |
| Validation.ValidateContactInput | src/middleware/index.ts:79-119 | rejects with the missing-fields error exactly when both fields are falsy; then with the email error exactly when a string email fails the email pattern; then with the phone error exactly when a string phone number fails the phone pattern once separators are stripped; otherwise passes |
| Validation.ValidEmailIsPattern | src/middleware/index.ts:94-95 | the scan accepts exactly the strings `^[^\s@]+@[^\s@]+\.[^\s@]+$` matches: one `@` after a non-empty local part, no whitespace, and a dot with text on both sides in the domain |
| Validation.ValidEmailSound | src/middleware/index.ts:94-95 | an accepted email splits into local part, `@`, domain head, `.`, and domain tail |
| Validation.ValidEmailComplete | src/middleware/index.ts:94-95 | every such split is accepted |
| Validation.Strip | src/middleware/index.ts:108 | the result has no whitespace, `-`, `(` or `)` and contains exactly the other characters of the input |
| Validation.StripIsFilter | src/middleware/index.ts:108 | stripping distributes over concatenation, so it removes the separators and keeps everything else in order |
| Validation.StripIdempotent | src/middleware/index.ts:108 | stripping twice is stripping once |
| Validation.ValidPhone | src/middleware/index.ts:107-108 | accepts exactly the numbers whose stripped form is an optional `+`, a digit 1-9, and at most fifteen more ASCII digits |
| Validation.ValidPhoneDigits | src/middleware/index.ts:107 | an accepted number strips to between one and seventeen characters, all digits except a possible leading `+` |
| Validation.ValidPhoneIgnoresSeparators | src/middleware/index.ts:108 | stripping before validation does not change the verdict |
| Validation.NonStringsPassThrough | src/middleware/index.ts:93-106 | values that are not strings are never shape-checked: the input passes exactly when some field is truthy |
| RateLimit.CeilSeconds | src/middleware/index.ts:56-57 | `Math.ceil(x / 1000)`: the least integer number of seconds covering `x` milliseconds, for either sign |
| RateLimit.Cleanup | src/middleware/index.ts:39-43 | keeps exactly the entries whose window has not ended at `now`, unchanged |
| RateLimit.Step | src/middleware/index.ts:34-73 | a request is limited exactly when the current window's count has reached the limit; a limited request is not counted and gets `retryAfter` in whole seconds; an admitted one is counted once and gets the limit, the remaining allowance in `[0, limit)` and the reset time; other clients keep their live entries |
| RateLimit.CleanupLeavesNoExpired | src/middleware/index.ts:46-50 | after clean-up the expiry test of the get-or-create step only fires for a missing entry |
| RateLimit.StepKeepsBound | src/middleware/index.ts:53-63 | with a non-negative limit, no stored count ever exceeds the limit |
| RateLimit.OtherClientKeeps | src/middleware/index.ts:39-50 | a request by another client leaves a client's open window untouched |
| RateLimit.RunWithinWindow | src/middleware/index.ts:46-63 | over a run of requests inside a client's open window, the window is kept and its count grows by exactly that client's admissions |
| RateLimit.RunKeepsBound | src/middleware/index.ts:53-63 | the count bound holds after any run of requests |
| RateLimit.WindowAdmissions | src/middleware/index.ts:53-70 | inside one open window a client is admitted at most the limit minus its current count |
| RateLimit.FreshWindowAdmissions | src/middleware/index.ts:46-70 | a client whose window has ended is admitted at most the limit times in the window its next request opens |
| RateLimit.DefaultWindowAdmissions | src/middleware/index.ts:33 | with the default limits, such a client is admitted at most 100 times in the 15 minutes that follow |

Helpers without a row of their own: `Contacts.RootOf` (its properties are `LiveRoot` and `GroupIffRoot`), `Reconcile.Relink`, `Reconcile.ApplyUpdate` and `Reconcile.ApplyUpdates` (their meaning is `ApplyUpdatesPointwise` and `MergeRewrite`), and `RateLimit.CurrentEntry` (described by `Step` and `CleanupLeavesNoExpired`).

## Left out

- The database itself is left out: Prisma, its query builder and the real storage. The match and group queries are defined functions over the in-memory store.
- Ties in `orderBy createdAt` are unspecified in the database. The model breaks them by store (insertion) order.
- `updatedAt` is not modelled. It is maintained by the database schema, not by this code.
- Concurrency and transactions are not modelled. The source issues sequential awaits without a transaction, so atomicity and interleavings are outside the code.
- `identify` fails before any write with the missing-fields and no-group errors. When `buildResponse` throws, the rows already created or relinked stay written: the model's `PrimaryContactMissing` error carries that store. On a well-formed store this error does not occur (`IdentifySucceeds`).
- A dangling `linkedId`, or a link to a row that is not a live primary, is excluded by `WellFormed`. Outside it the model follows the source. `groupContactsByPrimary` drops a root's group only when no live row has the root's own id. When other groups survive, the source carries on with them, and the matched row under the dropped root is neither relinked nor reported; the model does the same. Only when every collected root is dropped does the source crash, on `primaryGroup.primary.id` after `mergePrimaryGroups([])`. The model returns `Failure(NoPrimaryGroup)` for that case alone. A root whose own row is live but secondary, as in a link chain, keeps its group, because the `find` by id does not check the precedence. `buildResponse` then finds no primary row, and the model fails with `PrimaryContactMissing`.
- Reconcile.Identify takes the request fields at their declared string type. `validateContactInput` lets truthy non-string values through (`NonStringsPassThrough`), and the database then rejects them. That path is not modelled.
- `getContactStats`, `getAllContacts` and `getContactHierarchy` are read-only projections and are not modelled. `getContactStats` also computes with floating point.
- `requestLogger` and `corsOptions` are logging and static configuration.
- HTTP plumbing is not modelled: status codes, JSON bodies, `next()`, the controller and the routes.
- Validation.ValidateContactInput: request-body values are JSON values with integer numbers. NaN, fractional numbers and arrays are not distinguished; arrays count as objects.
- RateLimit.Step: the client key (`req.ip || remoteAddress || 'unknown'`) and `Date.now()` are parameters.
- RateLimit.Step: the `X-RateLimit-Reset` header is returned as the millisecond reset instant, not as its ISO-8601 text.
- RateLimit.Step: JavaScript numbers are unbounded integers here. Float precision and non-integer `maxRequests` or `windowMs` are not modelled.
- RateLimit: the source keeps one module-level table shared by every limiter instance. The model threads one table through the requests of one limiter.

=== FILE: Contacts.dfy ===
/** The contact record, the in-memory store that stands for the database,
    the two store queries the reconciliation engine issues, and the store
    invariant it maintains. */
module Contacts {
  import opened Wrappers
  import opened Sorting

  datatype LinkPrecedence = Primary | Secondary

  /** One row of the contact table. `createdAt` and `deletedAt` are clock
      readings in milliseconds; `deletedAt` set means soft-deleted. */
  datatype Contact = Contact(
    id: nat,
    email: Option<string>,
    phoneNumber: Option<string>,
    linkedId: Option<nat>,
    linkPrecedence: LinkPrecedence,
    createdAt: nat,
    deletedAt: Option<nat>)

  /** The table in insertion order, and the next autoincrement id. */
  datatype Store = Store(contacts: seq<Contact>, nextId: nat)

  predicate Live(c: Contact) {
    c.deletedAt.None?
  }

  /** JavaScript truthiness of an optional string field: absent, null and
      the empty string are all falsy. */
  predicate Given(v: Option<string>) {
    v.Some? && v.value != ""
  }

  /** `v || null`: a falsy field is stored as null. */
  function OrNull(v: Option<string>): (r: Option<string>)
    ensures r.Some? <==> Given(v)
    ensures Given(v) ==> r == v
  {
    if Given(v) then v else None
  }

  function CreatedAt(c: Contact): int {
    c.createdAt
  }

  /** The row belongs to the group rooted at `root`: it is the root itself or
      links to it (the `OR: [{ id }, { linkedId }]` condition). */
  predicate InGroupOf(c: Contact, root: nat) {
    c.id == root || c.linkedId == Some(root)
  }

  /** The group root a row names: its own id when primary, otherwise its
      `linkedId` when that is truthy (0 is falsy in JavaScript). */
  function RootOf(c: Contact): Option<nat> {
    if c.linkPrecedence == Primary then Some(c.id)
    else if c.linkedId.Some? && c.linkedId.value != 0 then c.linkedId
    else None
  }

  /** The condition of the match query: not deleted, and equal on a supplied
      email or on a supplied phone number. */
  predicate Matches(c: Contact, email: Option<string>, phoneNumber: Option<string>) {
    && Live(c)
    && ((Given(email) && c.email == email) || (Given(phoneNumber) && c.phoneNumber == phoneNumber))
  }

  function MatchingContacts(cs: seq<Contact>, email: Option<string>, phoneNumber: Option<string>): (r: seq<Contact>)
    ensures forall c :: c in r <==> c in cs && Matches(c, email, phoneNumber)
  {
    if |cs| == 0 then []
    else
      var init := cs[..|cs| - 1];
      var c := cs[|cs| - 1];
      assert cs == init + [c];
      MatchingContacts(init, email, phoneNumber) + (if Matches(c, email, phoneNumber) then [c] else [])
  }

  /** The live rows of the group rooted at `root`, in store order. */
  function GroupMembers(cs: seq<Contact>, root: nat): (r: seq<Contact>)
    ensures forall c :: c in r <==> c in cs && Live(c) && InGroupOf(c, root)
  {
    if |cs| == 0 then []
    else
      var init := cs[..|cs| - 1];
      var c := cs[|cs| - 1];
      assert cs == init + [c];
      GroupMembers(init, root) + (if Live(c) && InGroupOf(c, root) then [c] else [])
  }

  /** `findExistingContacts`: the matching rows ordered by creation time. */
  function FindExistingContacts(s: Store, email: Option<string>, phoneNumber: Option<string>): (r: seq<Contact>)
    ensures forall c :: c in r <==> c in s.contacts && Matches(c, email, phoneNumber)
    ensures SortedBy(r, CreatedAt)
  {
    var m := MatchingContacts(s.contacts, email, phoneNumber);
    SortByMembers(m, CreatedAt);
    SortBy(m, CreatedAt)
  }

  /** The group query: the live rows of the group rooted at `root`, ordered by
      creation time. */
  function FetchGroup(s: Store, root: nat): (r: seq<Contact>)
    ensures forall c :: c in r <==> c in s.contacts && Live(c) && InGroupOf(c, root)
    ensures SortedBy(r, CreatedAt)
  {
    var m := GroupMembers(s.contacts, root);
    SortByMembers(m, CreatedAt);
    SortBy(m, CreatedAt)
  }

  /** `prisma.contact.create`: appends the row under the next autoincrement id. */
  function Insert(s: Store, c: Contact): Store {
    Store(s.contacts + [c], s.nextId + 1)
  }

  /** `s'` keeps every row of `s` in place and adds exactly the row `c` after
      them, advancing the autoincrement counter once. */
  ghost predicate AppendsOne(s: Store, s': Store, c: Contact) {
    && |s'.contacts| == |s.contacts| + 1
    && s'.contacts[..|s.contacts|] == s.contacts
    && s'.contacts[|s.contacts|] == c
    && s'.nextId == s.nextId + 1
  }

  ghost predicate UniqueIds(cs: seq<Contact>) {
    forall i, j :: 0 <= i < j < |cs| ==> cs[i].id != cs[j].id
  }

  ghost predicate IsLivePrimary(cs: seq<Contact>, id: nat) {
    exists p :: p in cs && p.id == id && Live(p) && p.linkPrecedence == Primary
  }

  /** The store invariant: ids are unique autoincrement values starting at 1;
      a live row has a `linkedId` exactly when it is secondary; and a live
      secondary links directly to a live primary, so there are no chains. */
  ghost predicate WellFormed(s: Store) {
    && s.nextId >= 1
    && UniqueIds(s.contacts)
    && (forall c :: c in s.contacts ==> 1 <= c.id < s.nextId)
    && (forall c :: c in s.contacts && Live(c) ==> (c.linkedId.None? <==> c.linkPrecedence == Primary))
    && (forall c :: c in s.contacts && Live(c) && c.linkedId.Some? ==> IsLivePrimary(s.contacts, c.linkedId.value))
  }

  lemma SameId(cs: seq<Contact>, c: Contact, d: Contact)
    requires UniqueIds(cs) && c in cs && d in cs && c.id == d.id
    ensures c == d
  {
    var i :| 0 <= i < |cs| && cs[i] == c;
    var j :| 0 <= j < |cs| && cs[j] == d;
  }

  /** Every live row of a well-formed store has a root, that root is a live
      primary, and the row is in the root's group. */
  lemma LiveRoot(s: Store, c: Contact)
    requires WellFormed(s) && c in s.contacts && Live(c)
    ensures RootOf(c).Some?
    ensures IsLivePrimary(s.contacts, RootOf(c).value)
    ensures InGroupOf(c, RootOf(c).value)
  {
    if c.linkPrecedence == Secondary {
      var p :| p in s.contacts && p.id == c.linkedId.value && Live(p) && p.linkPrecedence == Primary;
      assert p.id >= 1;
    }
  }

  /** In a well-formed store a live row is in the group of a live primary
      exactly when that primary is the row's root. */
  lemma GroupIffRoot(s: Store, c: Contact, r: nat)
    requires WellFormed(s) && c in s.contacts && Live(c) && IsLivePrimary(s.contacts, r)
    ensures InGroupOf(c, r) <==> RootOf(c) == Some(r)
  {
    var p :| p in s.contacts && p.id == r && Live(p) && p.linkPrecedence == Primary;
    if c.id == r {
      SameId(s.contacts, c, p);
    }
    LiveRoot(s, c);
  }

  /** Every group of a well-formed store has exactly one primary: its root. */
  lemma {:induction false} OnePrimaryPerGroup(s: Store, r: nat, c: Contact)
    requires WellFormed(s) && IsLivePrimary(s.contacts, r)
    requires c in s.contacts && Live(c) && InGroupOf(c, r)
    ensures c.linkPrecedence == Primary <==> c.id == r
  {
    var p :| p in s.contacts && p.id == r && Live(p) && p.linkPrecedence == Primary;
    if c.id == r {
      SameId(s.contacts, c, p);
    } else {
      assert c.linkedId == Some(r);
    }
  }

}

=== FILE: IdentifyLaws.dfy ===
/** What a caller of `identify` observes: the response it returns, the store
    it leaves behind, and what a repeated call does. */
module IdentifyLaws {
  import opened Wrappers
  import opened Seqs
  import opened Contacts
  import opened Projection
  import opened Reconcile
  import opened IdentifyProofs

  // ----- projecting the target group -----

  /** A group holding exactly the live members of a live primary's group
      projects to a response led by that primary. */
  lemma ResponseOfGroup(s: Store, w: nat, group: seq<Contact>)
    requires WellFormed(s) && IsLivePrimary(s.contacts, w)
    requires forall c :: c in group <==> c in s.contacts && Live(c) && InGroupOf(c, w)
    ensures BuildResponse(group).Success?
    ensures group[FirstPrimary(group).value].id == w
    ensures BuildResponse(group).value.primaryContactId == w
  {
    var pw :| pw in s.contacts && pw.id == w && Live(pw) && pw.linkPrecedence == Primary;
    assert pw in group;
    var lead := group[FirstPrimary(group).value];
    assert lead in group;
    OnePrimaryPerGroup(s, w, lead);
  }

  /** `identify` on a well-formed store with a supplied field is reconciliation
      followed by projection of the target group. */
  lemma IdentifyOutcome(s: Store, email: Option<string>, phoneNumber: Option<string>, now: nat)
    requires WellFormed(s) && (Given(email) || Given(phoneNumber))
    ensures ReconcileContacts(s, email, phoneNumber, now).Success?
    ensures var t := ReconcileContacts(s, email, phoneNumber, now).value;
      && Reconciled(s, email, phoneNumber, now, t)
      && BuildResponse(t.group).Success?
      && t.group[FirstPrimary(t.group).value].id == t.primaryId
      && BuildResponse(t.group).value.primaryContactId == t.primaryId
      && Identify(s, email, phoneNumber, now) == Success(Outcome(t.store, BuildResponse(t.group).value))
  {
    ReconcileCorrect(s, email, phoneNumber, now);
    var t := ReconcileContacts(s, email, phoneNumber, now).value;
    ResponseOfGroup(t.store, t.primaryId, t.group);
  }

  // ----- the store after identify -----

  /** On a well-formed store with a supplied field, `identify` succeeds, keeps
      the store well-formed, names a live primary and places every matching row
      in that primary's group. What it may write is `IdentifyFrame`'s subject. */
  lemma IdentifySucceeds(s: Store, email: Option<string>, phoneNumber: Option<string>, now: nat)
    requires WellFormed(s) && (Given(email) || Given(phoneNumber))
    ensures Identify(s, email, phoneNumber, now).Success?
    ensures var o := Identify(s, email, phoneNumber, now).value;
      var w := o.response.primaryContactId;
      && WellFormed(o.store)
      && IsLivePrimary(o.store.contacts, w)
      && (forall c :: c in o.store.contacts && Matches(c, email, phoneNumber) ==> InGroupOf(c, w))
  {
    IdentifyOutcome(s, email, phoneNumber, now);
  }

  /** The target group has exactly one primary row, the target itself. */
  lemma IdentifyOnePrimary(s: Store, email: Option<string>, phoneNumber: Option<string>, now: nat)
    requires WellFormed(s) && (Given(email) || Given(phoneNumber))
    ensures Identify(s, email, phoneNumber, now).Success?
    ensures var o := Identify(s, email, phoneNumber, now).value;
      var w := o.response.primaryContactId;
      forall c :: c in o.store.contacts && Live(c) && InGroupOf(c, w) ==> (c.linkPrecedence == Primary <==> c.id == w)
  {
    IdentifyOutcome(s, email, phoneNumber, now);
    var o := Identify(s, email, phoneNumber, now).value;
    var w := o.response.primaryContactId;
    forall c | c in o.store.contacts && Live(c) && InGroupOf(c, w)
      ensures c.linkPrecedence == Primary <==> c.id == w
    {
      OnePrimaryPerGroup(o.store, w, c);
    }
  }

  /** The only writes: rows of other matched groups move under the target as
      secondaries (all of them, not only the matching ones), and at most one
      row is appended, which is the new primary or a secondary of the target. */
  lemma IdentifyFrame(s: Store, email: Option<string>, phoneNumber: Option<string>, now: nat)
    requires WellFormed(s) && (Given(email) || Given(phoneNumber))
    ensures Identify(s, email, phoneNumber, now).Success?
    ensures var o := Identify(s, email, phoneNumber, now).value;
      var w := o.response.primaryContactId;
      && ChangesOnly(s, o.store, w, email, phoneNumber, now)
      && MovesTouched(s, o.store, w, email, phoneNumber)
  {
    IdentifyOutcome(s, email, phoneNumber, now);
  }

  /** A row is appended only with an (email, phone) pair that no live row of
      the target group already holds. */
  lemma IdentifyNoDuplicatePair(s: Store, email: Option<string>, phoneNumber: Option<string>, now: nat)
    requires WellFormed(s) && (Given(email) || Given(phoneNumber))
    ensures Identify(s, email, phoneNumber, now).Success?
    ensures var o := Identify(s, email, phoneNumber, now).value;
      NoDuplicatePair(s, o.store, o.response.primaryContactId)
  {
    IdentifyOutcome(s, email, phoneNumber, now);
  }

  /** The target primary is the oldest primary among the matched roots, the
      first collected of them on a tie, or the freshly created row when
      nothing matched. */
  lemma IdentifyPicksOldest(s: Store, email: Option<string>, phoneNumber: Option<string>, now: nat)
    requires WellFormed(s) && (Given(email) || Given(phoneNumber))
    ensures Identify(s, email, phoneNumber, now).Success?
    ensures var w := Identify(s, email, phoneNumber, now).value.response.primaryContactId;
      && ((forall m :: m in s.contacts ==> !Matches(m, email, phoneNumber)) ==> w == s.nextId)
      && ((exists m :: m in s.contacts && Matches(m, email, phoneNumber)) ==> OldestTouched(s, email, phoneNumber, w))
      && ((exists m :: m in s.contacts && Matches(m, email, phoneNumber)) ==> FirstOfOldest(s, email, phoneNumber, w))
  {
    IdentifyOutcome(s, email, phoneNumber, now);
    ReconcileTarget(s, email, phoneNumber, now);
  }

  // ----- the response -----

  /** The response lists exactly the emails, phone numbers and secondary ids of
      the target group in the updated store, with the primary's own email and
      phone number first. */
  lemma IdentifyResponse(s: Store, email: Option<string>, phoneNumber: Option<string>, now: nat)
    requires WellFormed(s) && (Given(email) || Given(phoneNumber))
    ensures Identify(s, email, phoneNumber, now).Success?
    ensures var o := Identify(s, email, phoneNumber, now).value;
      var w := o.response.primaryContactId;
      && (forall x :: x in o.response.emails <==>
            exists c :: c in o.store.contacts && Live(c) && InGroupOf(c, w) && c.email == Some(x))
      && (forall x :: x in o.response.phoneNumbers <==>
            exists c :: c in o.store.contacts && Live(c) && InGroupOf(c, w) && c.phoneNumber == Some(x))
      && (forall id :: id in o.response.secondaryContactIds <==>
            exists c :: c in o.store.contacts && Live(c) && InGroupOf(c, w) && c.linkPrecedence == Secondary && c.id == id)
      && Distinct(o.response.emails) && Distinct(o.response.phoneNumbers)
      && (forall pw :: pw in o.store.contacts && pw.id == w && Given(pw.email) ==>
            |o.response.emails| > 0 && o.response.emails[0] == pw.email.value)
      && (forall pw :: pw in o.store.contacts && pw.id == w && Given(pw.phoneNumber) ==>
            |o.response.phoneNumbers| > 0 && o.response.phoneNumbers[0] == pw.phoneNumber.value)
  {
    IdentifyOutcome(s, email, phoneNumber, now);
    var t := ReconcileContacts(s, email, phoneNumber, now).value;
    var lead := t.group[FirstPrimary(t.group).value];
    assert lead in t.group;
    forall pw | pw in t.store.contacts && pw.id == t.primaryId
      ensures pw == lead
    {
      SameId(t.store.contacts, pw, lead);
    }
    EmailsOfGroup(t.group, lead);
  }

  /** The secondary ids are listed once each; when the clock is ahead of
      every stored row they are those of the target group in creation order. */
  lemma IdentifySecondaryIds(s: Store, email: Option<string>, phoneNumber: Option<string>, now: nat)
    requires WellFormed(s) && (Given(email) || Given(phoneNumber))
    ensures Identify(s, email, phoneNumber, now).Success?
    ensures var o := Identify(s, email, phoneNumber, now).value;
      && Distinct(o.response.secondaryContactIds)
      && (ClockAhead(s, now) ==>
            o.response.secondaryContactIds == SecondaryIds(FetchGroup(o.store, o.response.primaryContactId)))
  {
    IdentifyOutcome(s, email, phoneNumber, now);
    ReconciledGroupIds(s, email, phoneNumber, now);
    SecondaryIdsDistinct(ReconcileContacts(s, email, phoneNumber, now).value.group);
  }

  lemma EmailsOfGroup(group: seq<Contact>, lead: Contact)
    requires lead in group
    ensures lead.email in Emails(group) && lead.phoneNumber in Phones(group)
  {
  }

  /** The supplied email and phone number always appear in the response. */
  lemma IdentifyEchoesRequest(s: Store, email: Option<string>, phoneNumber: Option<string>, now: nat)
    requires WellFormed(s) && (Given(email) || Given(phoneNumber))
    ensures Identify(s, email, phoneNumber, now).Success?
    ensures var r := Identify(s, email, phoneNumber, now).value.response;
      && (Given(email) ==> email.value in r.emails)
      && (Given(phoneNumber) ==> phoneNumber.value in r.phoneNumbers)
  {
    IdentifyOutcome(s, email, phoneNumber, now);
    var t := ReconcileContacts(s, email, phoneNumber, now).value;
    GroupEchoes(t.group, email, phoneNumber);
  }

  lemma GroupEchoes(group: seq<Contact>, email: Option<string>, phoneNumber: Option<string>)
    requires ContainsRequest(group, email, phoneNumber) && BuildResponse(group).Success?
    ensures var r := BuildResponse(group).value;
      && (Given(email) ==> email.value in r.emails)
      && (Given(phoneNumber) ==> phoneNumber.value in r.phoneNumbers)
  {
    EmailEchoed(group, email);
    PhoneEchoed(group, phoneNumber);
  }

  lemma EmailEchoed(group: seq<Contact>, email: Option<string>)
    requires Given(email) ==> exists c :: c in group && c.email == email
    requires BuildResponse(group).Success?
    ensures Given(email) ==> email.value in BuildResponse(group).value.emails
  {
    if Given(email) {
      var c :| c in group && c.email == email;
      assert c.email in Emails(group);
    }
  }

  lemma PhoneEchoed(group: seq<Contact>, phoneNumber: Option<string>)
    requires Given(phoneNumber) ==> exists c :: c in group && c.phoneNumber == phoneNumber
    requires BuildResponse(group).Success?
    ensures Given(phoneNumber) ==> phoneNumber.value in BuildResponse(group).value.phoneNumbers
  {
    if Given(phoneNumber) {
      var c :| c in group && c.phoneNumber == phoneNumber;
      assert c.phoneNumber in Phones(group);
    }
  }

  // ----- a request nothing matches -----

  lemma SingletonValues(r: seq<string>, os: seq<Option<string>>, v: Option<string>)
    requires Distinct(r) && forall x :: x in r <==> Some(x) in os
    requires forall o :: o in os <==> o == OrNull(v)
    ensures r == if Given(v) then [v.value] else []
  {
    if Given(v) {
      assert v.value in r;
      forall j | 0 <= j < |r| ensures r[j] == v.value {
        assert Some(r[j]) in os;
      }
      DistinctConstant(r, v.value);
    } else {
      NoMemberEmpty(r);
    }
  }

  /** With no live row matching, `identify` appends one primary row carrying
      the supplied fields and answers with that row alone. */
  lemma IdentifyNoMatch(s: Store, email: Option<string>, phoneNumber: Option<string>, now: nat)
    requires Given(email) || Given(phoneNumber)
    requires forall c :: c in s.contacts ==> !Matches(c, email, phoneNumber)
    ensures var n := Contact(s.nextId, OrNull(email), OrNull(phoneNumber), None, Primary, now, None);
      Identify(s, email, phoneNumber, now) == Success(Outcome(Insert(s, n), Response(
        s.nextId,
        if Given(email) then [email.value] else [],
        if Given(phoneNumber) then [phoneNumber.value] else [],
        [])))
  {
    var n := Contact(s.nextId, OrNull(email), OrNull(phoneNumber), None, Primary, now, None);
    NothingFound(s, email, phoneNumber);
    NoMatchTarget(s, email, phoneNumber, now);
    SingletonResponse([n], n, email, phoneNumber);
  }

  lemma NothingFound(s: Store, email: Option<string>, phoneNumber: Option<string>)
    requires forall c :: c in s.contacts ==> !Matches(c, email, phoneNumber)
    ensures FindExistingContacts(s, email, phoneNumber) == []
  {
    NoMemberEmpty(FindExistingContacts(s, email, phoneNumber));
  }

  /** A lone primary row projects to its own id and fields, and no secondaries. */
  lemma SingletonResponse(cs: seq<Contact>, n: Contact, email: Option<string>, phoneNumber: Option<string>)
    requires cs == [n]
    requires n.linkPrecedence == Primary && n.email == OrNull(email) && n.phoneNumber == OrNull(phoneNumber)
    ensures BuildResponse(cs) == Success(Response(
      n.id,
      if Given(email) then [email.value] else [],
      if Given(phoneNumber) then [phoneNumber.value] else [],
      []))
  {
    SingletonFields(cs, n, email, phoneNumber);
    SingletonShape(cs, n);
    BuildResponseOfLead(cs, 0, n,
      if Given(email) then [email.value] else [],
      if Given(phoneNumber) then [phoneNumber.value] else []);
  }

  lemma SingletonFields(cs: seq<Contact>, n: Contact, email: Option<string>, phoneNumber: Option<string>)
    requires cs == [n] && n.email == OrNull(email) && n.phoneNumber == OrNull(phoneNumber)
    ensures ProjectValues(Emails(cs), n.email) == if Given(email) then [email.value] else []
    ensures ProjectValues(Phones(cs), n.phoneNumber) == if Given(phoneNumber) then [phoneNumber.value] else []
  {
    SingletonEmails(cs, n, email);
    SingletonPhones(cs, n, phoneNumber);
  }

  lemma SingletonShape(cs: seq<Contact>, n: Contact)
    requires cs == [n] && n.linkPrecedence == Primary
    ensures FirstPrimary(cs) == Some(0) && SecondaryIds(cs) == []
  {
    NoSecondaryIds(cs);
    SingletonLead(cs, n);
  }

  lemma BuildResponseOfLead(cs: seq<Contact>, p: nat, n: Contact, es: seq<string>, ps: seq<string>)
    requires FirstPrimary(cs) == Some(p) && p < |cs| && cs[p] == n
    requires ProjectValues(Emails(cs), n.email) == es && ProjectValues(Phones(cs), n.phoneNumber) == ps
    requires SecondaryIds(cs) == []
    ensures BuildResponse(cs) == Success(Response(n.id, es, ps, []))
  {
  }

  lemma SingletonLead(cs: seq<Contact>, n: Contact)
    requires cs == [n] && n.linkPrecedence == Primary
    ensures FirstPrimary(cs) == Some(0)
  {
    assert n in cs;
  }

  lemma SingletonEmails(cs: seq<Contact>, n: Contact, email: Option<string>)
    requires cs == [n] && n.email == OrNull(email)
    ensures ProjectValues(Emails(cs), n.email) == if Given(email) then [email.value] else []
  {
    SingletonValues(ProjectValues(Emails(cs), n.email), Emails(cs), email);
  }

  lemma SingletonPhones(cs: seq<Contact>, n: Contact, phoneNumber: Option<string>)
    requires cs == [n] && n.phoneNumber == OrNull(phoneNumber)
    ensures ProjectValues(Phones(cs), n.phoneNumber) == if Given(phoneNumber) then [phoneNumber.value] else []
  {
    SingletonValues(ProjectValues(Phones(cs), n.phoneNumber), Phones(cs), phoneNumber);
  }

  lemma NoSecondaryIds(cs: seq<Contact>)
    requires forall c :: c in cs ==> c.linkPrecedence == Primary
    ensures SecondaryIds(cs) == []
  {
    NoMemberEmpty(SecondaryIds(cs));
  }

  // ----- repeating a request -----

  /** After `identify`, every row a repeated request matches lies in the one
      target group, so the repeated request resolves to that root alone. */
  lemma RepeatFindsTarget(s: Store, email: Option<string>, phoneNumber: Option<string>, w: nat)
    requires WellFormed(s) && IsLivePrimary(s.contacts, w) && (Given(email) || Given(phoneNumber))
    requires ContainsRequest(FetchGroup(s, w), email, phoneNumber)
    requires forall c :: c in s.contacts && Matches(c, email, phoneNumber) ==> InGroupOf(c, w)
    ensures |FindExistingContacts(s, email, phoneNumber)| > 0
    ensures CollectRoots(FindExistingContacts(s, email, phoneNumber)) == [w]
  {
    RepeatMatches(s, email, phoneNumber, w);
    MatchesRootedAt(s, email, phoneNumber, w);
    SingleRootCollected(FindExistingContacts(s, email, phoneNumber), w);
  }

  lemma RepeatMatches(s: Store, email: Option<string>, phoneNumber: Option<string>, w: nat)
    requires Given(email) || Given(phoneNumber)
    requires ContainsRequest(FetchGroup(s, w), email, phoneNumber)
    ensures |FindExistingContacts(s, email, phoneNumber)| > 0
  {
    var m: Contact;
    if Given(email) {
      m :| m in FetchGroup(s, w) && m.email == email;
    } else {
      m :| m in FetchGroup(s, w) && m.phoneNumber == phoneNumber;
    }
    assert m in FindExistingContacts(s, email, phoneNumber);
  }

  lemma MatchesRootedAt(s: Store, email: Option<string>, phoneNumber: Option<string>, w: nat)
    requires WellFormed(s) && IsLivePrimary(s.contacts, w)
    requires forall c :: c in s.contacts && Matches(c, email, phoneNumber) ==> InGroupOf(c, w)
    ensures forall c :: c in FindExistingContacts(s, email, phoneNumber) ==> RootOf(c) == Some(w)
  {
    forall c | c in FindExistingContacts(s, email, phoneNumber) ensures RootOf(c) == Some(w) {
      GroupIffRoot(s, c, w);
    }
  }

  lemma SingleRootCollected(cs: seq<Contact>, w: nat)
    requires |cs| > 0 && forall c :: c in cs ==> RootOf(c) == Some(w)
    ensures CollectRoots(cs) == [w]
  {
    var roots := CollectRoots(cs);
    assert cs[0] in cs;
    assert w in roots;
    DistinctConstant(roots, w);
  }

  /** A repeated request finds nothing new: it resolves to the target group
      without writing. */
  lemma RepeatIsStable(s: Store, email: Option<string>, phoneNumber: Option<string>, w: nat, later: nat)
    requires WellFormed(s) && IsLivePrimary(s.contacts, w) && (Given(email) || Given(phoneNumber))
    requires ContainsRequest(FetchGroup(s, w), email, phoneNumber)
    requires forall c :: c in s.contacts && Matches(c, email, phoneNumber) ==> InGroupOf(c, w)
    ensures ReconcileContacts(s, email, phoneNumber, later) == Success(Resolved(s, w, FetchGroup(s, w)))
  {
    RepeatFindsTarget(s, email, phoneNumber, w);
    var groups := OneLiveRootGroup(s, w);
    SingleGroupKeeps(s, email, phoneNumber, later, groups);
  }

  lemma OneLiveRootGroup(s: Store, w: nat) returns (groups: seq<Group>)
    requires WellFormed(s) && IsLivePrimary(s.contacts, w)
    ensures groups == GroupByPrimary(s, [w])
    ensures |groups| == 1 && groups[0].primary.id == w && groups[0].allContacts == FetchGroup(s, w)
  {
    groups := GroupByPrimary(s, [w]);
    GroupsOfLiveRoots(s, [w]);
    assert groups[0] in groups;
  }

  lemma SingleGroupKeeps(s: Store, email: Option<string>, phoneNumber: Option<string>, now: nat, groups: seq<Group>)
    requires |FindExistingContacts(s, email, phoneNumber)| > 0
    requires groups == GroupByPrimary(s, CollectRoots(FindExistingContacts(s, email, phoneNumber)))
    requires |groups| == 1
    requires ContainsRequest(groups[0].allContacts, email, phoneNumber)
    ensures ReconcileContacts(s, email, phoneNumber, now) == Success(Resolved(s, groups[0].primary.id, groups[0].allContacts))
  {
    assert !NeedsNewSecondaryContact(groups[0].allContacts, email, phoneNumber);
  }

  /** Repeating a request writes nothing, whatever the two clock readings:
      the second call finds every matching row in the target's group and the
      supplied values already held there, so it keeps the store and the target. */
  lemma RepeatWritesNothing(s: Store, email: Option<string>, phoneNumber: Option<string>, now: nat, later: nat)
    requires WellFormed(s) && (Given(email) || Given(phoneNumber))
    ensures Identify(s, email, phoneNumber, now).Success?
    ensures var o := Identify(s, email, phoneNumber, now).value;
      && Identify(o.store, email, phoneNumber, later).Success?
      && Identify(o.store, email, phoneNumber, later).value.store == o.store
      && Identify(o.store, email, phoneNumber, later).value.response.primaryContactId == o.response.primaryContactId
  {
    IdentifyOutcome(s, email, phoneNumber, now);
    var t := ReconcileContacts(s, email, phoneNumber, now).value;
    RequestStillHeld(t.group, FetchGroup(t.store, t.primaryId), email, phoneNumber);
    RepeatIsStable(t.store, email, phoneNumber, t.primaryId, later);
    IdentifyOutcome(t.store, email, phoneNumber, later);
  }

  lemma RequestStillHeld(g: seq<Contact>, h: seq<Contact>, email: Option<string>, phoneNumber: Option<string>)
    requires ContainsRequest(g, email, phoneNumber)
    requires forall c :: c in g ==> c in h
    ensures ContainsRequest(h, email, phoneNumber)
  {
  }

  /** `identify` is idempotent: repeating a request, at any later time, leaves
      the store as it is and returns the same response, provided the first call
      ran with the clock no earlier than any stored row. Without that proviso a
      row appended with an older `createdAt` is listed last by the first call
      but sorted into place by the second, so only `RepeatWritesNothing` holds. */
  lemma IdentifyIdempotent(s: Store, email: Option<string>, phoneNumber: Option<string>, now: nat, later: nat)
    requires WellFormed(s) && (Given(email) || Given(phoneNumber)) && ClockAhead(s, now)
    ensures Identify(s, email, phoneNumber, now).Success?
    ensures var o := Identify(s, email, phoneNumber, now).value;
      Identify(o.store, email, phoneNumber, later) == Success(o)
  {
    IdentifyOutcome(s, email, phoneNumber, now);
    var t := ReconcileContacts(s, email, phoneNumber, now).value;
    RepeatIsStable(t.store, email, phoneNumber, t.primaryId, later);
  }
}

=== FILE: IdentifyProofs.dfy ===
/** Properties of `identify` over a well-formed store: it always succeeds
    when a field is supplied, keeps the store invariant, absorbs every
    matching row into one group, touches nothing outside the matched groups,
    and a repeated call changes nothing. */
module IdentifyProofs {
  import opened Wrappers
  import opened Seqs
  import opened Sorting
  import opened Contacts
  import opened Projection
  import opened Reconcile
  import opened MergeProofs

  /** `r` is the root of a row the request matched. */
  ghost predicate TouchedRoot(s: Store, email: Option<string>, phoneNumber: Option<string>, r: nat) {
    exists m :: m in s.contacts && Matches(m, email, phoneNumber) && RootOf(m) == Some(r)
  }

  /** The group holds a row with the requested email and one with the
      requested phone number (for the fields supplied). */
  ghost predicate ContainsRequest(group: seq<Contact>, email: Option<string>, phoneNumber: Option<string>) {
    && (Given(email) ==> exists c :: c in group && c.email == email)
    && (Given(phoneNumber) ==> exists c :: c in group && c.phoneNumber == phoneNumber)
  }

  /** The clock reading is no earlier than any stored creation time. */
  ghost predicate ClockAhead(s: Store, now: nat) {
    forall c :: c in s.contacts ==> c.createdAt <= now
  }

  /** The only writes are relinking rows of matched groups other than the
      target `w` under `w`, and at most one appended row, which is either the
      new primary `w` itself or a secondary linked to `w`. */
  ghost predicate ChangesOnly(s: Store, s': Store, w: nat, email: Option<string>, phoneNumber: Option<string>, now: nat) {
    && |s.contacts| <= |s'.contacts| <= |s.contacts| + 1
    && s'.nextId == s.nextId + (|s'.contacts| - |s.contacts|)
    && (forall i :: 0 <= i < |s.contacts| ==>
          || s'.contacts[i] == s.contacts[i]
          || (&& Live(s.contacts[i])
              && RootOf(s.contacts[i]).Some?
              && RootOf(s.contacts[i]).value != w
              && TouchedRoot(s, email, phoneNumber, RootOf(s.contacts[i]).value)
              && s'.contacts[i] == s.contacts[i].(linkedId := Some(w), linkPrecedence := Secondary)))
    && (|s'.contacts| > |s.contacts| ==>
          s'.contacts[|s.contacts|] ==
            if s.nextId == w then Contact(s.nextId, OrNull(email), OrNull(phoneNumber), None, Primary, now, None)
            else Contact(s.nextId, OrNull(email), OrNull(phoneNumber), Some(w), Secondary, now, None))
  }

  /** Every live row of a matched group other than `w`'s, not only the
      matching rows, is relinked under `w` as a secondary. */
  ghost predicate MovesTouched(s: Store, s': Store, w: nat, email: Option<string>, phoneNumber: Option<string>) {
    && |s.contacts| <= |s'.contacts|
    && forall i :: 0 <= i < |s.contacts| && Live(s.contacts[i]) && RootOf(s.contacts[i]).Some?
                   && RootOf(s.contacts[i]).value != w && TouchedRoot(s, email, phoneNumber, RootOf(s.contacts[i]).value) ==>
         s'.contacts[i] == s.contacts[i].(linkedId := Some(w), linkPrecedence := Secondary)
  }

  /** An appended row does not repeat the (email, phone) pair of a live row
      already in its group. */
  ghost predicate NoDuplicatePair(s: Store, s': Store, w: nat) {
    |s'.contacts| > |s.contacts| ==>
      var n := s'.contacts[|s.contacts|];
      forall i :: 0 <= i < |s.contacts| && Live(s'.contacts[i]) && InGroupOf(s'.contacts[i], w) ==>
        !(s'.contacts[i].email == n.email && s'.contacts[i].phoneNumber == n.phoneNumber)
  }

  /** `w` is a matched root whose primary row is at least as old as the
      primary row of every matched root. */
  ghost predicate OldestTouched(s: Store, email: Option<string>, phoneNumber: Option<string>, w: nat) {
    && TouchedRoot(s, email, phoneNumber, w)
    && exists pw :: && pw in s.contacts && pw.id == w && Live(pw) && pw.linkPrecedence == Primary
                    && forall pr :: pr in s.contacts && Live(pr) && pr.linkPrecedence == Primary && TouchedRoot(s, email, phoneNumber, pr.id) ==>
                         pw.createdAt <= pr.createdAt
  }

  /** Every primary row of root `r` is strictly younger than every row with id `w`. */
  ghost predicate YoungerRoot(s: Store, r: nat, w: nat) {
    forall pw, pr :: pw in s.contacts && pr in s.contacts && pw.id == w && pr.id == r ==> pw.createdAt < pr.createdAt
  }

  /** The tie order of the stable sort: `w` is a collected root, and every
      root collected before it has a strictly younger primary row, so among
      equally old primaries the one whose root was collected first wins. */
  ghost predicate FirstOfOldest(s: Store, email: Option<string>, phoneNumber: Option<string>, w: nat) {
    var roots := CollectRoots(FindExistingContacts(s, email, phoneNumber));
    && w in roots
    && forall k :: 0 <= k < IndexOf(roots, w) ==> YoungerRoot(s, roots[k], w)
  }

  /** Everything `identify` guarantees before projecting the target group. */
  ghost predicate Reconciled(s: Store, email: Option<string>, phoneNumber: Option<string>, now: nat, t: Resolved) {
    && WellFormed(t.store)
    && IsLivePrimary(t.store.contacts, t.primaryId)
    && (forall c :: c in t.group <==> c in t.store.contacts && Live(c) && InGroupOf(c, t.primaryId))
    && (forall c :: c in t.store.contacts && Matches(c, email, phoneNumber) ==> InGroupOf(c, t.primaryId))
    && ContainsRequest(t.group, email, phoneNumber)
    && ChangesOnly(s, t.store, t.primaryId, email, phoneNumber, now)
    && MovesTouched(s, t.store, t.primaryId, email, phoneNumber)
    && NoDuplicatePair(s, t.store, t.primaryId)
    && (ClockAhead(s, now) ==> t.group == FetchGroup(t.store, t.primaryId))
  }

  // ----- store queries -----

  lemma GroupMembersAppend(cs: seq<Contact>, c: Contact, root: nat)
    ensures GroupMembers(cs + [c], root) == GroupMembers(cs, root) + (if Live(c) && InGroupOf(c, root) then [c] else [])
  {
    assert (cs + [c])[..|cs|] == cs;
  }

  /** A row inserted at the current clock reading lands at the end of its group. */
  lemma FetchGroupAppend(s: Store, n: Contact, w: nat)
    requires Live(n) && InGroupOf(n, w)
    requires forall c :: c in s.contacts ==> c.createdAt <= n.createdAt
    ensures FetchGroup(Insert(s, n), w) == FetchGroup(s, w) + [n]
  {
    GroupMembersAppend(s.contacts, n, w);
    SortByAppendLargest(GroupMembers(s.contacts, w), n, CreatedAt);
  }

  lemma MatchedRoots(s: Store, email: Option<string>, phoneNumber: Option<string>)
    requires WellFormed(s)
    ensures var roots := CollectRoots(FindExistingContacts(s, email, phoneNumber));
      && (forall r :: r in roots ==> IsLivePrimary(s.contacts, r))
      && (forall r :: r in roots <==> TouchedRoot(s, email, phoneNumber, r))
      && (forall m :: m in s.contacts && Matches(m, email, phoneNumber) ==> RootOf(m).Some? && RootOf(m).value in roots)
  {
    var roots := CollectRoots(FindExistingContacts(s, email, phoneNumber));
    forall m | m in s.contacts && Matches(m, email, phoneNumber)
      ensures RootOf(m).Some? && IsLivePrimary(s.contacts, RootOf(m).value)
    {
      LiveRoot(s, m);
    }
  }

  lemma GroupByPrimaryCons(s: Store, roots: seq<nat>, p: Contact)
    requires |roots| > 0 && FindById(FetchGroup(s, roots[0]), roots[0]) == Some(p)
    ensures GroupByPrimary(s, roots) == [Group(p, FetchGroup(s, roots[0]))] + GroupByPrimary(s, roots[1..])
  {
  }

  /** With every root a live primary, each root yields exactly one group, in order. */
  lemma {:induction false} GroupsOfLiveRoots(s: Store, roots: seq<nat>)
    requires UniqueIds(s.contacts)
    requires forall r :: r in roots ==> IsLivePrimary(s.contacts, r)
    ensures |GroupByPrimary(s, roots)| == |roots|
    ensures forall k :: 0 <= k < |roots| ==> GroupByPrimary(s, roots)[k].primary.id == roots[k]
    ensures FetchedGroups(s, GroupByPrimary(s, roots))
  {
    if |roots| > 0 {
      var p := HeadGroupPrimary(s, roots);
      GroupsOfLiveRoots(s, roots[1..]);
      GroupByPrimaryCons(s, roots, p);
      GroupsStep(s, roots, Group(p, FetchGroup(s, roots[0])), GroupByPrimary(s, roots[1..]));
    }
  }

  lemma HeadGroupPrimary(s: Store, roots: seq<nat>) returns (p: Contact)
    requires UniqueIds(s.contacts) && |roots| > 0
    requires forall r :: r in roots ==> IsLivePrimary(s.contacts, r)
    ensures FindById(FetchGroup(s, roots[0]), roots[0]) == Some(p)
    ensures p in s.contacts && Live(p) && p.linkPrecedence == Primary
    ensures forall r :: r in roots[1..] ==> IsLivePrimary(s.contacts, r)
  {
    assert roots[0] in roots;
    p :| p in s.contacts && p.id == roots[0] && Live(p) && p.linkPrecedence == Primary;
    var members := FetchGroup(s, roots[0]);
    assert p in members;
    var q := FindById(members, roots[0]);
    SameId(s.contacts, p, q.value);
  }

  lemma GroupsStep(s: Store, roots: seq<nat>, g: Group, tail: seq<Group>)
    requires |roots| > 0 && g.primary.id == roots[0]
    requires |tail| == |roots| - 1
    requires forall k :: 0 <= k < |tail| ==> tail[k].primary.id == roots[k + 1]
    ensures var gs := [g] + tail;
      && |gs| == |roots|
      && forall k :: 0 <= k < |roots| ==> gs[k].primary.id == roots[k]
  {
  }

  /** Groups built for distinct roots are told apart by their primary id. */
  lemma SamePrimarySameGroup(groups: seq<Group>, roots: seq<nat>, g1: Group, g2: Group)
    requires |groups| == |roots| && Distinct(roots)
    requires forall k :: 0 <= k < |roots| ==> groups[k].primary.id == roots[k]
    requires g1 in groups && g2 in groups && g1.primary.id == g2.primary.id
    ensures g1 == g2
  {
    var a :| 0 <= a < |groups| && groups[a] == g1;
    var b :| 0 <= b < |groups| && groups[b] == g2;
    assert roots[a] == roots[b];
  }

  lemma GroupsDistinct(groups: seq<Group>, roots: seq<nat>)
    requires |groups| == |roots| && Distinct(roots)
    requires forall k :: 0 <= k < |roots| ==> groups[k].primary.id == roots[k]
    ensures Distinct(groups)
  {
    forall i, j | 0 <= i < j < |groups| ensures groups[i] != groups[j] {
      assert groups[i].primary.id == roots[i] && groups[j].primary.id == roots[j];
    }
  }

  /** The winner (head of the groups ordered by primary creation time) is
      not among the losers, and winner plus losers are exactly the roots. */
  lemma WinnerAndLosers(s: Store, roots: seq<nat>)
    requires UniqueIds(s.contacts) && Distinct(roots) && |roots| > 0
    requires forall r :: r in roots ==> IsLivePrimary(s.contacts, r)
    ensures var ordered := SortBy(GroupByPrimary(s, roots), PrimaryCreatedAt);
      && |ordered| == |roots|
      && FetchedGroups(s, ordered)
      && ordered[0].primary.id !in LoserIds(ordered[1..])
      && forall r :: r in roots <==> r == ordered[0].primary.id || r in LoserIds(ordered[1..])
  {
    var groups := GroupByPrimary(s, roots);
    GroupsOfLiveRoots(s, roots);
    var ordered := SortBy(groups, PrimaryCreatedAt);
    SortByMembers(groups, PrimaryCreatedAt);
    GroupsDistinct(groups, roots);
    PermutationKeepsDistinct(ordered, groups);
    WinnerNotLoser(groups, roots, ordered);
    RootsAreWinnerOrLosers(groups, roots, ordered);
  }

  lemma WinnerNotLoser(groups: seq<Group>, roots: seq<nat>, ordered: seq<Group>)
    requires |groups| == |roots| && Distinct(roots) && Distinct(ordered) && |ordered| > 0
    requires forall k :: 0 <= k < |roots| ==> groups[k].primary.id == roots[k]
    requires forall g :: g in ordered <==> g in groups
    ensures ordered[0].primary.id !in LoserIds(ordered[1..])
  {
    forall g | g in ordered[1..]
      ensures g.primary.id != ordered[0].primary.id
    {
      var j :| 1 <= j < |ordered| && ordered[j] == g;
      assert ordered[0] != ordered[j];
      assert ordered[0] in ordered;
      if g.primary.id == ordered[0].primary.id {
        SamePrimarySameGroup(groups, roots, g, ordered[0]);
      }
    }
  }

  lemma RootsAreWinnerOrLosers(groups: seq<Group>, roots: seq<nat>, ordered: seq<Group>)
    requires |groups| == |roots| && |ordered| > 0
    requires forall k :: 0 <= k < |roots| ==> groups[k].primary.id == roots[k]
    requires forall g :: g in ordered <==> g in groups
    ensures forall r :: r in roots <==> r == ordered[0].primary.id || r in LoserIds(ordered[1..])
  {
    assert ordered == [ordered[0]] + ordered[1..];
    forall r | r in roots
      ensures r == ordered[0].primary.id || r in LoserIds(ordered[1..])
    {
      var k :| 0 <= k < |roots| && roots[k] == r;
      var g := groups[k];
      assert g in ordered;
    }
    forall g | g in ordered
      ensures g.primary.id in roots
    {
      var k :| 0 <= k < |groups| && groups[k] == g;
    }
  }

  // ----- building blocks shared by the three branches -----

  lemma NoChanges(s: Store, w: nat, email: Option<string>, phoneNumber: Option<string>, now: nat)
    ensures ChangesOnly(s, s, w, email, phoneNumber, now)
  {
  }

  /** Appending the row `identify` creates keeps the write set within `ChangesOnly`. */
  lemma AppendChangesOnly(s: Store, s1: Store, n: Contact, w: nat, email: Option<string>, phoneNumber: Option<string>, now: nat)
    requires ChangesOnly(s, s1, w, email, phoneNumber, now)
    requires |s1.contacts| == |s.contacts| && s1.nextId == s.nextId
    requires n == if s.nextId == w then Contact(s.nextId, OrNull(email), OrNull(phoneNumber), None, Primary, now, None)
                  else Contact(s.nextId, OrNull(email), OrNull(phoneNumber), Some(w), Secondary, now, None)
    ensures ChangesOnly(s, Insert(s1, n), w, email, phoneNumber, now)
  {
    var s2 := Insert(s1, n);
    assert forall i :: 0 <= i < |s.contacts| ==> s2.contacts[i] == s1.contacts[i];
  }

  /** The new row carries every supplied field. */
  lemma NewRowContainsRequest(n: Contact, email: Option<string>, phoneNumber: Option<string>)
    requires n.email == OrNull(email) && n.phoneNumber == OrNull(phoneNumber)
    ensures ContainsRequest([n], email, phoneNumber)
  {
    assert n in [n];
  }

  lemma ContainsRequestAppend(group: seq<Contact>, n: Contact, email: Option<string>, phoneNumber: Option<string>)
    requires n.email == OrNull(email) && n.phoneNumber == OrNull(phoneNumber)
    ensures ContainsRequest(group + [n], email, phoneNumber)
  {
    assert n in group + [n];
  }

  /** The fetched group plus an appended member is the appended store's group. */
  lemma AppendedGroupMembers(s: Store, n: Contact, w: nat)
    requires Live(n) && InGroupOf(n, w)
    ensures forall c :: c in FetchGroup(s, w) + [n] <==> c in Insert(s, n).contacts && Live(c) && InGroupOf(c, w)
  {
  }

  lemma AppendKeepsAbsorbed(s: Store, n: Contact, w: nat, email: Option<string>, phoneNumber: Option<string>)
    requires InGroupOf(n, w)
    requires forall c :: c in s.contacts && Matches(c, email, phoneNumber) ==> InGroupOf(c, w)
    ensures forall c :: c in Insert(s, n).contacts && Matches(c, email, phoneNumber) ==> InGroupOf(c, w)
  {
  }

  /** The state just before the final `needsNewSecondaryContact` decision:
      `s1` is `s` with matched groups folded under `w`. */
  ghost predicate Absorbed(s: Store, s1: Store, w: nat, email: Option<string>, phoneNumber: Option<string>, now: nat) {
    && WellFormed(s1)
    && IsLivePrimary(s1.contacts, w)
    && |s1.contacts| == |s.contacts| && s1.nextId == s.nextId
    && ChangesOnly(s, s1, w, email, phoneNumber, now)
    && MovesTouched(s, s1, w, email, phoneNumber)
    && (forall c :: c in s1.contacts && Matches(c, email, phoneNumber) ==> InGroupOf(c, w))
    && (ClockAhead(s, now) ==> ClockAhead(s1, now))
  }

  lemma AppendMoves(s: Store, s1: Store, n: Contact, w: nat, email: Option<string>, phoneNumber: Option<string>)
    requires MovesTouched(s, s1, w, email, phoneNumber)
    ensures MovesTouched(s, Insert(s1, n), w, email, phoneNumber)
  {
    var s2 := Insert(s1, n);
    assert forall i :: 0 <= i < |s1.contacts| ==> s2.contacts[i] == s1.contacts[i];
  }

  /** The secondary row is created only when no member holds its exact pair. */
  lemma ExtendNoDuplicate(s: Store, s1: Store, w: nat, email: Option<string>, phoneNumber: Option<string>, now: nat)
    requires |s1.contacts| == |s.contacts|
    requires NeedsNewSecondaryContact(FetchGroup(s1, w), email, phoneNumber)
    ensures NoDuplicatePair(s, CreateSecondaryContact(s1, email, phoneNumber, w, now).store, w)
  {
    var created := CreateSecondaryContact(s1, email, phoneNumber, w, now);
    var s2 := created.store;
    forall i | 0 <= i < |s.contacts| && Live(s2.contacts[i]) && InGroupOf(s2.contacts[i], w)
      ensures !(s2.contacts[i].email == created.contact.email && s2.contacts[i].phoneNumber == created.contact.phoneNumber)
    {
      assert s2.contacts[i] == s1.contacts[i];
      assert s1.contacts[i] in FetchGroup(s1, w);
    }
  }

  /** No new information: the absorbed store and its target group are the result. */
  lemma FinishKeep(s: Store, s1: Store, w: nat, email: Option<string>, phoneNumber: Option<string>, now: nat)
    requires Absorbed(s, s1, w, email, phoneNumber, now)
    requires !NeedsNewSecondaryContact(FetchGroup(s1, w), email, phoneNumber)
    ensures Reconciled(s, email, phoneNumber, now, Resolved(s1, w, FetchGroup(s1, w)))
  {
  }

  /** New information: a secondary row joins the target group at its end. */
  lemma FinishExtend(s: Store, s1: Store, w: nat, email: Option<string>, phoneNumber: Option<string>, now: nat)
    requires Absorbed(s, s1, w, email, phoneNumber, now)
    requires NeedsNewSecondaryContact(FetchGroup(s1, w), email, phoneNumber)
    ensures var created := CreateSecondaryContact(s1, email, phoneNumber, w, now);
      Reconciled(s, email, phoneNumber, now, Resolved(created.store, w, FetchGroup(s1, w) + [created.contact]))
  {
    var created := CreateSecondaryContact(s1, email, phoneNumber, w, now);
    var n := created.contact;
    CreateSecondaryPreservesWellFormed(s1, email, phoneNumber, w, now);
    var pw :| pw in s1.contacts && pw.id == w && Live(pw) && pw.linkPrecedence == Primary;
    assert pw in created.store.contacts;
    assert w < s.nextId;
    AppendChangesOnly(s, s1, n, w, email, phoneNumber, now);
    AppendMoves(s, s1, n, w, email, phoneNumber);
    ExtendNoDuplicate(s, s1, w, email, phoneNumber, now);
    AppendedGroupMembers(s1, n, w);
    AppendKeepsAbsorbed(s1, n, w, email, phoneNumber);
    ContainsRequestAppend(FetchGroup(s1, w), n, email, phoneNumber);
    if ClockAhead(s, now) {
      FetchGroupAppend(s1, n, w);
    }
  }

  // ----- the three branches of identify -----

  /** No row matches: a fresh primary row alone forms the target group. */
  lemma NoMatchCase(s: Store, email: Option<string>, phoneNumber: Option<string>, now: nat)
    requires WellFormed(s)
    requires |FindExistingContacts(s, email, phoneNumber)| == 0
    ensures var created := CreatePrimaryContact(s, email, phoneNumber, now);
      Reconciled(s, email, phoneNumber, now, Resolved(created.store, created.contact.id, [created.contact]))
  {
    var created := CreatePrimaryContact(s, email, phoneNumber, now);
    var n := created.contact;
    NoMatchStore(s, n);
    NoMatchGroup(s, n);
    NoMatchAbsorbed(s, n, email, phoneNumber);
    NoMatchChanges(s, n, email, phoneNumber, now);
    NoMatchMoves(s, n, email, phoneNumber);
    NoMatchNoDuplicate(s, n);
    NewRowContainsRequest(n, email, phoneNumber);
    NoMatchFetch(s, n, now);
  }

  lemma NoMatchMoves(s: Store, n: Contact, email: Option<string>, phoneNumber: Option<string>)
    requires |FindExistingContacts(s, email, phoneNumber)| == 0
    ensures MovesTouched(s, Insert(s, n), n.id, email, phoneNumber)
  {
    forall r ensures !TouchedRoot(s, email, phoneNumber, r) {
      forall m | m in s.contacts ensures !Matches(m, email, phoneNumber) {
      }
    }
  }

  lemma NoMatchNoDuplicate(s: Store, n: Contact)
    requires WellFormed(s) && n.id == s.nextId
    ensures NoDuplicatePair(s, Insert(s, n), n.id)
  {
    var s2 := Insert(s, n);
    FreshIdNotLinked(s);
    forall i | 0 <= i < |s.contacts| ensures !(Live(s2.contacts[i]) && InGroupOf(s2.contacts[i], n.id)) {
      assert s2.contacts[i] == s.contacts[i];
      assert s.contacts[i] in s.contacts;
    }
  }

  lemma NoMatchStore(s: Store, n: Contact)
    requires WellFormed(s) && n.id == s.nextId && Live(n) && n.linkedId.None? && n.linkPrecedence == Primary
    ensures WellFormed(Insert(s, n)) && IsLivePrimary(Insert(s, n).contacts, n.id)
  {
    InsertPreservesWellFormed(s, n);
    assert n in Insert(s, n).contacts;
  }

  lemma NoMatchChanges(s: Store, n: Contact, email: Option<string>, phoneNumber: Option<string>, now: nat)
    requires n == Contact(s.nextId, OrNull(email), OrNull(phoneNumber), None, Primary, now, None)
    ensures ChangesOnly(s, Insert(s, n), n.id, email, phoneNumber, now)
  {
    NoChanges(s, n.id, email, phoneNumber, now);
    AppendChangesOnly(s, s, n, n.id, email, phoneNumber, now);
  }

  lemma NoMatchAbsorbed(s: Store, n: Contact, email: Option<string>, phoneNumber: Option<string>)
    requires |FindExistingContacts(s, email, phoneNumber)| == 0 && InGroupOf(n, n.id)
    ensures forall c :: c in Insert(s, n).contacts && Matches(c, email, phoneNumber) ==> InGroupOf(c, n.id)
  {
    forall c | c in s.contacts ensures !Matches(c, email, phoneNumber) {
    }
  }

  lemma NoMatchGroup(s: Store, n: Contact)
    requires WellFormed(s) && n.id == s.nextId && Live(n)
    ensures forall c :: c in [n] <==> c in Insert(s, n).contacts && Live(c) && InGroupOf(c, n.id)
  {
    FreshIdNotLinked(s);
  }

  /** With the clock ahead of the store, the fresh primary is alone in its fetched group. */
  lemma NoMatchFetch(s: Store, n: Contact, now: nat)
    requires WellFormed(s) && n.id == s.nextId && Live(n) && n.linkedId.None? && n.createdAt == now
    ensures ClockAhead(s, now) ==> FetchGroup(Insert(s, n), n.id) == [n]
  {
    if ClockAhead(s, now) {
      FreshIdNotLinked(s);
      var before := FetchGroup(s, n.id);
      NoMembersOfFresh(s.contacts, n.id);
      assert before == [];
      FetchGroupAppend(s, n, n.id);
    }
  }

  /** A root no live row belongs to has no members. */
  lemma {:induction false} NoMembersOfFresh(cs: seq<Contact>, root: nat)
    requires forall c :: c in cs && Live(c) ==> !InGroupOf(c, root)
    ensures GroupMembers(cs, root) == []
    decreases |cs|
  {
    if |cs| > 0 {
      assert forall c :: c in cs[..|cs| - 1] ==> c in cs;
      NoMembersOfFresh(cs[..|cs| - 1], root);
    }
  }

  /** Every match lies in one group: its primary `w` is the target. */
  lemma SingleGroupAbsorbed(s: Store, email: Option<string>, phoneNumber: Option<string>, now: nat)
    requires WellFormed(s)
    requires |GroupByPrimary(s, CollectRoots(FindExistingContacts(s, email, phoneNumber)))| == 1
    ensures var g := GroupByPrimary(s, CollectRoots(FindExistingContacts(s, email, phoneNumber)))[0];
      && g.allContacts == FetchGroup(s, g.primary.id)
      && Absorbed(s, s, g.primary.id, email, phoneNumber, now)
  {
    var w := SingleRoot(s, email, phoneNumber);
    AbsorbedUnderRoot(s, w, email, phoneNumber);
    NoChanges(s, w, email, phoneNumber, now);
    OnlyRootTouched(s, email, phoneNumber, w);
  }

  /** The single group's primary is the only matched root. */
  lemma SingleRoot(s: Store, email: Option<string>, phoneNumber: Option<string>) returns (w: nat)
    requires WellFormed(s)
    requires |GroupByPrimary(s, CollectRoots(FindExistingContacts(s, email, phoneNumber)))| == 1
    ensures var g := GroupByPrimary(s, CollectRoots(FindExistingContacts(s, email, phoneNumber)))[0];
      && w == g.primary.id
      && g.allContacts == FetchGroup(s, w)
      && IsLivePrimary(s.contacts, w)
      && forall m :: m in s.contacts && Matches(m, email, phoneNumber) ==> RootOf(m) == Some(w)
  {
    var roots := CollectRoots(FindExistingContacts(s, email, phoneNumber));
    MatchedRoots(s, email, phoneNumber);
    GroupsOfLiveRoots(s, roots);
    var groups := GroupByPrimary(s, roots);
    var g := groups[0];
    w := g.primary.id;
    OneRoot(roots, w);
    assert g in groups;
  }

  lemma OneRoot(roots: seq<nat>, w: nat)
    requires |roots| == 1 && roots[0] == w
    ensures w in roots && forall r :: r in roots ==> r == w
  {
  }

  lemma OnlyRootTouched(s: Store, email: Option<string>, phoneNumber: Option<string>, w: nat)
    requires forall m :: m in s.contacts && Matches(m, email, phoneNumber) ==> RootOf(m) == Some(w)
    ensures MovesTouched(s, s, w, email, phoneNumber)
  {
  }

  lemma AbsorbedUnderRoot(s: Store, w: nat, email: Option<string>, phoneNumber: Option<string>)
    requires WellFormed(s) && IsLivePrimary(s.contacts, w)
    requires forall m :: m in s.contacts && Matches(m, email, phoneNumber) ==> RootOf(m) == Some(w)
    ensures forall m :: m in s.contacts && Matches(m, email, phoneNumber) ==> InGroupOf(m, w)
  {
    forall m | m in s.contacts && Matches(m, email, phoneNumber)
      ensures InGroupOf(m, w)
    {
      LiveRoot(s, m);
    }
  }

  /** Several groups match: the earliest primary absorbs the others. */
  lemma MergeAbsorbed(s: Store, email: Option<string>, phoneNumber: Option<string>, now: nat)
    requires WellFormed(s)
    requires |FindExistingContacts(s, email, phoneNumber)| > 0
    ensures var ordered := SortBy(GroupByPrimary(s, CollectRoots(FindExistingContacts(s, email, phoneNumber))), PrimaryCreatedAt);
      && |ordered| > 0
      && var w := ordered[0].primary.id;
         Absorbed(s, Store(ApplyUpdates(s.contacts, LoserUpdates(ordered[1..], w)), s.nextId), w, email, phoneNumber, now)
  {
    var existing := FindExistingContacts(s, email, phoneNumber);
    var roots := CollectRoots(existing);
    MatchedRoots(s, email, phoneNumber);
    assert existing[0] in existing;
    assert |roots| > 0;
    WinnerAndLosers(s, roots);
    var ordered := SortBy(GroupByPrimary(s, roots), PrimaryCreatedAt);
    var w := ordered[0].primary.id;
    var losers := ordered[1..];
    var L := LoserIds(losers);
    assert ordered[0] in ordered;
    assert IsLivePrimary(s.contacts, w);
    assert FetchedGroups(s, losers);
    var s1 := Store(ApplyUpdates(s.contacts, LoserUpdates(losers, w)), s.nextId);
    MergeRewrite(s, losers, w);
    RehomePreservesWellFormed(s, s1, L, w);
    MergedStore(s, s1, L, w, email, phoneNumber, now, roots);
  }

  /** The rehomed store absorbs every matching row into the winner's group and
      changes only rows of matched groups. */
  lemma MergedStore(s: Store, s1: Store, L: set<nat>, w: nat, email: Option<string>, phoneNumber: Option<string>, now: nat, roots: seq<nat>)
    requires WellFormed(s) && IsLivePrimary(s.contacts, w) && w !in L
    requires RehomedStore(s, s1, L, w)
    requires forall r :: r in roots <==> r == w || r in L
    requires forall r :: r in roots <==> TouchedRoot(s, email, phoneNumber, r)
    requires forall m :: m in s.contacts && Matches(m, email, phoneNumber) ==> RootOf(m).Some? && RootOf(m).value in roots
    ensures forall c :: c in s1.contacts && Matches(c, email, phoneNumber) ==> InGroupOf(c, w)
    ensures ChangesOnly(s, s1, w, email, phoneNumber, now)
    ensures MovesTouched(s, s1, w, email, phoneNumber)
    ensures ClockAhead(s, now) ==> ClockAhead(s1, now)
  {
    forall c' | c' in s1.contacts && Matches(c', email, phoneNumber)
      ensures InGroupOf(c', w)
    {
      var i :| 0 <= i < |s1.contacts| && s1.contacts[i] == c';
      var c := s.contacts[i];
      assert c' == Rehome(c, L, w);
      assert Matches(c, email, phoneNumber);
      RehomedGroup(s, L, w, c);
    }
    forall i | 0 <= i < |s.contacts| && s1.contacts[i] != s.contacts[i]
      ensures RootOf(s.contacts[i]).value in roots
    {
    }
    if ClockAhead(s, now) {
      forall c' | c' in s1.contacts ensures c'.createdAt <= now {
        var i :| 0 <= i < |s1.contacts| && s1.contacts[i] == c';
        assert c'.createdAt == s.contacts[i].createdAt;
      }
    }
  }

  /** On a well-formed store, reconciliation succeeds and establishes
      `Reconciled`, whichever branch it takes. */
  lemma ReconcileCorrect(s: Store, email: Option<string>, phoneNumber: Option<string>, now: nat)
    requires WellFormed(s)
    ensures ReconcileContacts(s, email, phoneNumber, now).Success?
    ensures Reconciled(s, email, phoneNumber, now, ReconcileContacts(s, email, phoneNumber, now).value)
  {
    var existing := FindExistingContacts(s, email, phoneNumber);
    var groups := GroupByPrimary(s, CollectRoots(existing));
    if |existing| == 0 {
      NoMatchCase(s, email, phoneNumber, now);
    } else if |groups| == 1 {
      SingleGroupAbsorbed(s, email, phoneNumber, now);
      var w := groups[0].primary.id;
      if NeedsNewSecondaryContact(FetchGroup(s, w), email, phoneNumber) {
        FinishExtend(s, s, w, email, phoneNumber, now);
      } else {
        FinishKeep(s, s, w, email, phoneNumber, now);
      }
    } else {
      MergeAbsorbed(s, email, phoneNumber, now);
      var ordered := SortBy(groups, PrimaryCreatedAt);
      var w := ordered[0].primary.id;
      var s1 := Store(ApplyUpdates(s.contacts, LoserUpdates(ordered[1..], w)), s.nextId);
      if NeedsNewSecondaryContact(FetchGroup(s1, w), email, phoneNumber) {
        FinishExtend(s, s1, w, email, phoneNumber, now);
      } else {
        FinishKeep(s, s1, w, email, phoneNumber, now);
      }
    }
  }

  // ----- ids within the target group -----

  lemma AppendFreshId(g: seq<Contact>, n: Contact)
    requires UniqueIds(g)
    requires forall x :: x in g ==> x.id != n.id
    ensures UniqueIds(g + [n])
  {
    var r := g + [n];
    forall i, j | 0 <= i < j < |r|
      ensures r[i].id != r[j].id
    {
      assert r[i] == g[i];
      if j < |g| {
        assert r[j] == g[j];
      } else {
        assert g[i] in g;
      }
    }
  }

  /** Filtering keeps ids apart. */
  lemma {:induction false} GroupMembersUniqueIds(cs: seq<Contact>, root: nat)
    requires UniqueIds(cs)
    ensures UniqueIds(GroupMembers(cs, root))
    decreases |cs|
  {
    if |cs| > 0 {
      var init := cs[..|cs| - 1];
      var c := cs[|cs| - 1];
      assert UniqueIds(init);
      GroupMembersUniqueIds(init, root);
      var g := GroupMembers(init, root);
      assert GroupMembers(cs, root) == g + (if Live(c) && InGroupOf(c, root) then [c] else []);
      forall x | x in g
        ensures x.id != c.id
      {
        var i :| 0 <= i < |init| && init[i] == x;
        assert cs[i] == x;
      }
      if Live(c) && InGroupOf(c, root) {
        AppendFreshId(g, c);
      }
    }
  }

  /** Reordering keeps ids apart. */
  lemma PermutationUniqueIds(a: seq<Contact>, b: seq<Contact>)
    requires multiset(a) == multiset(b) && UniqueIds(b)
    ensures UniqueIds(a)
  {
    PermutationKeepsDistinct(a, b);
    forall i, j | 0 <= i < j < |a|
      ensures a[i].id != a[j].id
    {
      assert a[i] in multiset(b) && a[j] in multiset(b);
      var k := IndexOf(b, a[i]);
      var l := IndexOf(b, a[j]);
      assert k != l;
      if k < l {
        assert b[k].id != b[l].id;
      } else {
        assert b[l].id != b[k].id;
      }
    }
  }

  lemma FetchGroupUniqueIds(s: Store, w: nat)
    requires UniqueIds(s.contacts)
    ensures UniqueIds(FetchGroup(s, w))
  {
    GroupMembersUniqueIds(s.contacts, w);
    PermutationUniqueIds(FetchGroup(s, w), GroupMembers(s.contacts, w));
  }

  /** A group, possibly extended by the row created with the next id, has no
      two rows with the same id. */
  lemma ResolvedGroupIds(s1: Store, w: nat, email: Option<string>, phoneNumber: Option<string>, now: nat)
    requires WellFormed(s1)
    ensures UniqueIds(FetchGroup(s1, w))
    ensures UniqueIds(FetchGroup(s1, w) + [CreateSecondaryContact(s1, email, phoneNumber, w, now).contact])
  {
    FetchGroupUniqueIds(s1, w);
    AppendFreshId(FetchGroup(s1, w), CreateSecondaryContact(s1, email, phoneNumber, w, now).contact);
  }

  /** The group `identify` projects has no two rows with the same id. */
  lemma ReconciledGroupIds(s: Store, email: Option<string>, phoneNumber: Option<string>, now: nat)
    requires WellFormed(s)
    ensures ReconcileContacts(s, email, phoneNumber, now).Success?
    ensures UniqueIds(ReconcileContacts(s, email, phoneNumber, now).value.group)
  {
    var existing := FindExistingContacts(s, email, phoneNumber);
    var groups := GroupByPrimary(s, CollectRoots(existing));
    if |existing| == 0 {
    } else if |groups| == 1 {
      SingleGroupAbsorbed(s, email, phoneNumber, now);
      KeptGroupIds(s, s, groups[0].primary.id, email, phoneNumber, now);
    } else {
      MergeAbsorbed(s, email, phoneNumber, now);
      var ordered := SortBy(groups, PrimaryCreatedAt);
      var w := ordered[0].primary.id;
      KeptGroupIds(s, Store(ApplyUpdates(s.contacts, LoserUpdates(ordered[1..], w)), s.nextId), w, email, phoneNumber, now);
    }
  }

  /** The group resolved on the store `s1` a branch leaves, as `ReconcileContacts` returns it. */
  lemma KeptGroupIds(s: Store, s1: Store, w: nat, email: Option<string>, phoneNumber: Option<string>, now: nat)
    requires Absorbed(s, s1, w, email, phoneNumber, now)
    ensures !NeedsNewSecondaryContact(FetchGroup(s1, w), email, phoneNumber) ==>
      UniqueIds(Resolved(s1, w, FetchGroup(s1, w)).group)
    ensures NeedsNewSecondaryContact(FetchGroup(s1, w), email, phoneNumber) ==>
      var created := CreateSecondaryContact(s1, email, phoneNumber, w, now);
      UniqueIds(Resolved(created.store, w, FetchGroup(s1, w) + [created.contact]).group)
  {
    ResolvedGroupIds(s1, w, email, phoneNumber, now);
  }

  // ----- which primary wins -----

  /** With a single matched group, its root is trivially the oldest. */
  lemma SingleGroupOldest(s: Store, email: Option<string>, phoneNumber: Option<string>, w: nat)
    requires WellFormed(s) && IsLivePrimary(s.contacts, w)
    requires exists m :: m in s.contacts && Matches(m, email, phoneNumber)
    requires forall m :: m in s.contacts && Matches(m, email, phoneNumber) ==> RootOf(m) == Some(w)
    ensures OldestTouched(s, email, phoneNumber, w)
  {
    var pw :| pw in s.contacts && pw.id == w && Live(pw) && pw.linkPrecedence == Primary;
    forall pr | pr in s.contacts && Live(pr) && pr.linkPrecedence == Primary && TouchedRoot(s, email, phoneNumber, pr.id)
      ensures pw.createdAt <= pr.createdAt
    {
      SameId(s.contacts, pw, pr);
    }
  }

  /** The head of the groups ordered by primary creation time has the oldest primary. */
  lemma MergeOldest(s: Store, email: Option<string>, phoneNumber: Option<string>)
    requires WellFormed(s)
    requires |FindExistingContacts(s, email, phoneNumber)| > 0
    ensures var ordered := SortBy(GroupByPrimary(s, CollectRoots(FindExistingContacts(s, email, phoneNumber))), PrimaryCreatedAt);
      |ordered| > 0 && OldestTouched(s, email, phoneNumber, ordered[0].primary.id)
  {
    var existing := FindExistingContacts(s, email, phoneNumber);
    var roots := CollectRoots(existing);
    MatchedRoots(s, email, phoneNumber);
    assert existing[0] in existing;
    assert |roots| > 0;
    var groups := GroupByPrimary(s, roots);
    GroupsOfLiveRoots(s, roots);
    var ordered := SortBy(groups, PrimaryCreatedAt);
    SortByMembers(groups, PrimaryCreatedAt);
    OrderedHeadOldest(s, email, phoneNumber, roots, groups, ordered);
  }

  lemma OrderedHeadOldest(s: Store, email: Option<string>, phoneNumber: Option<string>, roots: seq<nat>, groups: seq<Group>, ordered: seq<Group>)
    requires UniqueIds(s.contacts) && FetchedGroups(s, groups) && |groups| == |roots| && |ordered| > 0
    requires forall k :: 0 <= k < |roots| ==> groups[k].primary.id == roots[k]
    requires forall r :: r in roots <==> TouchedRoot(s, email, phoneNumber, r)
    requires SortedBy(ordered, PrimaryCreatedAt)
    requires forall g :: g in ordered <==> g in groups
    ensures OldestTouched(s, email, phoneNumber, ordered[0].primary.id)
  {
    HeadIsMinimal(ordered, PrimaryCreatedAt);
    var pw := ordered[0].primary;
    assert ordered[0] in groups;
    forall pr | pr in s.contacts && Live(pr) && pr.linkPrecedence == Primary && TouchedRoot(s, email, phoneNumber, pr.id)
      ensures pw.createdAt <= pr.createdAt
    {
      var g := GroupOfRoot(s, roots, groups, pr);
      assert PrimaryCreatedAt(ordered[0]) <= PrimaryCreatedAt(g);
    }
  }

  lemma HeadIsMinimal<T>(xs: seq<T>, key: T -> int)
    requires SortedBy(xs, key) && |xs| > 0
    ensures forall y :: y in xs ==> key(xs[0]) <= key(y)
  {
    forall y | y in xs ensures key(xs[0]) <= key(y) {
      var j :| 0 <= j < |xs| && xs[j] == y;
      if j > 0 {
        assert key(xs[0]) <= key(xs[j]);
      }
    }
  }

  /** A primary row of a listed root is the primary of that root's group. */
  lemma GroupOfRoot(s: Store, roots: seq<nat>, groups: seq<Group>, pr: Contact) returns (g: Group)
    requires UniqueIds(s.contacts) && FetchedGroups(s, groups) && |groups| == |roots|
    requires forall k :: 0 <= k < |roots| ==> groups[k].primary.id == roots[k]
    requires pr in s.contacts && pr.id in roots
    ensures g in groups && g.primary == pr
  {
    var k :| 0 <= k < |roots| && roots[k] == pr.id;
    g := groups[k];
    assert g in groups;
    SameId(s.contacts, g.primary, pr);
  }

  lemma NoMatchTarget(s: Store, email: Option<string>, phoneNumber: Option<string>, now: nat)
    requires |FindExistingContacts(s, email, phoneNumber)| == 0
    ensures ReconcileContacts(s, email, phoneNumber, now) == Success(Resolved(
      CreatePrimaryContact(s, email, phoneNumber, now).store, s.nextId, [CreatePrimaryContact(s, email, phoneNumber, now).contact]))
  {
  }

  lemma SingleTarget(s: Store, email: Option<string>, phoneNumber: Option<string>, now: nat)
    requires |FindExistingContacts(s, email, phoneNumber)| > 0
    requires |GroupByPrimary(s, CollectRoots(FindExistingContacts(s, email, phoneNumber)))| == 1
    ensures ReconcileContacts(s, email, phoneNumber, now).Success?
    ensures ReconcileContacts(s, email, phoneNumber, now).value.primaryId
      == GroupByPrimary(s, CollectRoots(FindExistingContacts(s, email, phoneNumber)))[0].primary.id
  {
    var g := GroupByPrimary(s, CollectRoots(FindExistingContacts(s, email, phoneNumber)))[0];
    var r := ReconcileContacts(s, email, phoneNumber, now);
    if NeedsNewSecondaryContact(g.allContacts, email, phoneNumber) {
      var created := CreateSecondaryContact(s, email, phoneNumber, g.primary.id, now);
      assert r == Success(Resolved(created.store, g.primary.id, g.allContacts + [created.contact]));
    } else {
      assert r == Success(Resolved(s, g.primary.id, g.allContacts));
    }
  }

  lemma MergeTarget(s: Store, email: Option<string>, phoneNumber: Option<string>, now: nat)
    requires |FindExistingContacts(s, email, phoneNumber)| > 0
    requires |GroupByPrimary(s, CollectRoots(FindExistingContacts(s, email, phoneNumber)))| > 1
    ensures ReconcileContacts(s, email, phoneNumber, now).Success?
    ensures ReconcileContacts(s, email, phoneNumber, now).value.primaryId
      == SortBy(GroupByPrimary(s, CollectRoots(FindExistingContacts(s, email, phoneNumber))), PrimaryCreatedAt)[0].primary.id
  {
    var groups := GroupByPrimary(s, CollectRoots(FindExistingContacts(s, email, phoneNumber)));
    assert ReconcileContacts(s, email, phoneNumber, now) == MergePrimaryGroups(s, groups, email, phoneNumber, now);
    MergeWinnerId(s, groups, email, phoneNumber, now);
  }

  lemma MergeWinnerId(s: Store, groups: seq<Group>, email: Option<string>, phoneNumber: Option<string>, now: nat)
    requires |groups| > 0
    ensures MergePrimaryGroups(s, groups, email, phoneNumber, now).Success?
    ensures SortBy(groups, PrimaryCreatedAt) != []
    ensures MergePrimaryGroups(s, groups, email, phoneNumber, now).value.primaryId == SortBy(groups, PrimaryCreatedAt)[0].primary.id
  {
    SortByMembers(groups, PrimaryCreatedAt);
    var ordered := SortBy(groups, PrimaryCreatedAt);
    var w := ordered[0].primary.id;
    var merged := Store(ApplyUpdates(s.contacts, LoserUpdates(ordered[1..], w)), s.nextId);
    if NeedsNewSecondaryContact(FetchGroup(merged, w), email, phoneNumber) {
      var created := CreateSecondaryContact(merged, email, phoneNumber, w, now);
      assert MergePrimaryGroups(s, groups, email, phoneNumber, now) == Success(Resolved(created.store, w, FetchGroup(merged, w) + [created.contact]));
    } else {
      assert MergePrimaryGroups(s, groups, email, phoneNumber, now) == Success(Resolved(merged, w, FetchGroup(merged, w)));
    }
  }

  /** Without a match the target is the fresh id; otherwise it is the oldest matched root. */
  lemma ReconcileTarget(s: Store, email: Option<string>, phoneNumber: Option<string>, now: nat)
    requires WellFormed(s)
    ensures ReconcileContacts(s, email, phoneNumber, now).Success?
    ensures var w := ReconcileContacts(s, email, phoneNumber, now).value.primaryId;
      && ((forall m :: m in s.contacts ==> !Matches(m, email, phoneNumber)) ==> w == s.nextId)
      && ((exists m :: m in s.contacts && Matches(m, email, phoneNumber)) ==> OldestTouched(s, email, phoneNumber, w))
      && ((exists m :: m in s.contacts && Matches(m, email, phoneNumber)) ==> FirstOfOldest(s, email, phoneNumber, w))
  {
    var existing := FindExistingContacts(s, email, phoneNumber);
    var groups := GroupByPrimary(s, CollectRoots(existing));
    if |existing| == 0 {
      NoMatchTarget(s, email, phoneNumber, now);
    } else if |groups| == 1 {
      SingleTarget(s, email, phoneNumber, now);
      var w := SingleRoot(s, email, phoneNumber);
      assert existing[0] in existing;
      SingleGroupOldest(s, email, phoneNumber, w);
      OrderedHeadFirst(s, email, phoneNumber);
    } else {
      MergeOldest(s, email, phoneNumber);
      MergeTarget(s, email, phoneNumber, now);
      OrderedHeadFirst(s, email, phoneNumber);
    }
  }

  /** The head of the groups ordered by primary creation time is the first
      collected root among the oldest ones. */
  lemma OrderedHeadFirst(s: Store, email: Option<string>, phoneNumber: Option<string>)
    requires WellFormed(s) && |FindExistingContacts(s, email, phoneNumber)| > 0
    ensures var groups := GroupByPrimary(s, CollectRoots(FindExistingContacts(s, email, phoneNumber)));
      && |groups| > 0
      && (|groups| == 1 ==> SortBy(groups, PrimaryCreatedAt)[0] == groups[0])
      && FirstOfOldest(s, email, phoneNumber, SortBy(groups, PrimaryCreatedAt)[0].primary.id)
  {
    var existing := FindExistingContacts(s, email, phoneNumber);
    var roots := CollectRoots(existing);
    MatchedRoots(s, email, phoneNumber);
    assert existing[0] in existing;
    GroupsOfLiveRoots(s, roots);
    HeadTie(s, roots, GroupByPrimary(s, roots));
  }

  lemma HeadTie(s: Store, roots: seq<nat>, groups: seq<Group>)
    requires UniqueIds(s.contacts) && FetchedGroups(s, groups) && |groups| == |roots| > 0 && Distinct(roots)
    requires forall k :: 0 <= k < |roots| ==> groups[k].primary.id == roots[k]
    ensures |groups| == 1 ==> SortBy(groups, PrimaryCreatedAt)[0] == groups[0]
    ensures var w := SortBy(groups, PrimaryCreatedAt)[0].primary.id;
      w in roots && forall k :: 0 <= k < IndexOf(roots, w) ==> YoungerRoot(s, roots[k], w)
  {
    var i := SortByHead(groups, PrimaryCreatedAt);
    TieOrder(s, roots, groups, i);
  }

  /** The first minimum of the groups sits at the first oldest root. */
  lemma TieOrder(s: Store, roots: seq<nat>, groups: seq<Group>, i: int)
    requires UniqueIds(s.contacts) && FetchedGroups(s, groups) && |groups| == |roots| && Distinct(roots)
    requires forall k :: 0 <= k < |roots| ==> groups[k].primary.id == roots[k]
    requires IsFirstMinimum(groups, PrimaryCreatedAt, i)
    ensures roots[i] in roots && IndexOf(roots, roots[i]) == i
    ensures forall k :: 0 <= k < i ==> YoungerRoot(s, roots[k], roots[i])
  {
    assert roots[i] in roots;
    forall k | 0 <= k < i
      ensures YoungerRoot(s, roots[k], roots[i])
    {
      assert groups[i] in groups && groups[k] in groups;
      assert PrimaryCreatedAt(groups[i]) < PrimaryCreatedAt(groups[k]);
      forall pw, pr | pw in s.contacts && pr in s.contacts && pw.id == roots[i] && pr.id == roots[k]
        ensures pw.createdAt < pr.createdAt
      {
        SameId(s.contacts, pw, groups[i].primary);
        SameId(s.contacts, pr, groups[k].primary);
      }
    }
  }
}

=== FILE: MergeProofs.dfy ===
/** What the merge loop does to the store: the sequential relinking updates
    amount to moving every row of a losing group under the winner, and that
    keeps the store well-formed. */
module MergeProofs {
  import opened Wrappers
  import opened Seqs
  import opened Sorting
  import opened Contacts
  import opened Reconcile

  ghost predicate Targeted(us: seq<LinkUpdate>, id: nat) {
    exists u :: u in us && u.id == id
  }

  ghost predicate DemotedBy(us: seq<LinkUpdate>, id: nat) {
    exists u :: u in us && u.id == id && u.demote
  }

  /** The net effect on one row of a list of updates that all relink to `w`. */
  ghost function Effect(c: Contact, us: seq<LinkUpdate>, w: nat): Contact {
    if Targeted(us, c.id) then
      c.(linkedId := Some(w), linkPrecedence := if DemotedBy(us, c.id) then Secondary else c.linkPrecedence)
    else c
  }

  /** Updates that all relink to the same winner commute: applying them in
      order gives, row by row, their net effect. */
  lemma {:induction false} ApplyUpdatesPointwise(cs: seq<Contact>, us: seq<LinkUpdate>, w: nat)
    requires forall u :: u in us ==> u.linkedId == w
    ensures forall i :: 0 <= i < |cs| ==> ApplyUpdates(cs, us)[i] == Effect(cs[i], us, w)
    decreases |us|
  {
    if |us| > 0 {
      var u := us[0];
      var rest := us[1..];
      assert us == [u] + rest;
      var cs1 := ApplyUpdate(cs, u);
      ApplyUpdatesPointwise(cs1, rest, w);
      forall i | 0 <= i < |cs|
        ensures ApplyUpdates(cs, us)[i] == Effect(cs[i], us, w)
      {
        var c := cs[i];
        assert cs1[i] == if c.id == u.id then Relink(c, u) else c;
        assert Targeted(us, c.id) <==> c.id == u.id || Targeted(rest, c.id);
        assert DemotedBy(us, c.id) <==> (c.id == u.id && u.demote) || DemotedBy(rest, c.id);
      }
    }
  }

  function LoserIds(losers: seq<Group>): set<nat> {
    set g | g in losers :: g.primary.id
  }

  /** A row whose root lost the merge is relinked, as a secondary, to `w`;
      every other row is left as it was. */
  function Rehome(c: Contact, losers: set<nat>, w: nat): Contact {
    if Live(c) && RootOf(c).Some? && RootOf(c).value in losers then
      c.(linkedId := Some(w), linkPrecedence := Secondary)
    else c
  }

  /** Each group is the live primary of a root together with the fetched group of that root. */
  ghost predicate FetchedGroups(s: Store, groups: seq<Group>) {
    forall g :: g in groups ==>
      && g.primary in s.contacts && Live(g.primary) && g.primary.linkPrecedence == Primary
      && g.allContacts == FetchGroup(s, g.primary.id)
  }

  lemma DemotedRowIsLoserPrimary(s: Store, losers: seq<Group>, g: Group, c: Contact)
    requires WellFormed(s) && FetchedGroups(s, losers) && c in s.contacts
    requires g in losers && g.primary.id == c.id
    ensures Live(c) && RootOf(c) == Some(g.primary.id) && g.primary.id in LoserIds(losers)
  {
    SameId(s.contacts, c, g.primary);
  }

  lemma RelinkedRowIsLoserMember(s: Store, losers: seq<Group>, g: Group, d: Contact, c: Contact)
    requires WellFormed(s) && FetchedGroups(s, losers) && c in s.contacts
    requires g in losers && d in g.allContacts && d.id == c.id && d.id != g.primary.id
    ensures Live(c) && RootOf(c) == Some(g.primary.id) && g.primary.id in LoserIds(losers)
    ensures c.linkPrecedence == Secondary
  {
    assert d in FetchGroup(s, g.primary.id);
    SameId(s.contacts, c, d);
    assert IsLivePrimary(s.contacts, g.primary.id);
    GroupIffRoot(s, c, g.primary.id);
  }

  /** A row some update touches is a live row of a losing group, and ends up secondary. */
  lemma TargetedIsLoserRow(s: Store, losers: seq<Group>, w: nat, c: Contact)
    requires WellFormed(s) && FetchedGroups(s, losers) && c in s.contacts
    requires Targeted(LoserUpdates(losers, w), c.id)
    ensures Live(c) && RootOf(c).Some? && RootOf(c).value in LoserIds(losers)
    ensures DemotedBy(LoserUpdates(losers, w), c.id) || c.linkPrecedence == Secondary
  {
    var us := LoserUpdates(losers, w);
    var u :| u in us && u.id == c.id;
    if u.demote {
      var g :| g in losers && g.primary.id == u.id;
      DemotedRowIsLoserPrimary(s, losers, g, c);
    } else {
      var g, d :| g in losers && d in g.allContacts && d.id == u.id && d.id != g.primary.id;
      RelinkedRowIsLoserMember(s, losers, g, d, c);
    }
  }

  /** Every live row of a losing group is touched by some update. */
  lemma LoserRowIsTargeted(s: Store, losers: seq<Group>, w: nat, c: Contact)
    requires WellFormed(s) && FetchedGroups(s, losers) && c in s.contacts
    requires Live(c) && RootOf(c).Some? && RootOf(c).value in LoserIds(losers)
    ensures Targeted(LoserUpdates(losers, w), c.id)
  {
    var us := LoserUpdates(losers, w);
    var r := RootOf(c).value;
    var g :| g in losers && g.primary.id == r;
    LiveRoot(s, c);
    if c.id == r {
      assert LinkUpdate(r, w, true) in us;
    } else {
      assert c in g.allContacts;
      assert LinkUpdate(c.id, w, false) in us;
    }
  }

  lemma LoserEffectIsRehome(s: Store, losers: seq<Group>, w: nat, c: Contact)
    requires WellFormed(s) && FetchedGroups(s, losers) && c in s.contacts
    ensures Effect(c, LoserUpdates(losers, w), w) == Rehome(c, LoserIds(losers), w)
  {
    if Targeted(LoserUpdates(losers, w), c.id) {
      TargetedIsLoserRow(s, losers, w, c);
    } else if Live(c) && RootOf(c).Some? && RootOf(c).value in LoserIds(losers) {
      LoserRowIsTargeted(s, losers, w, c);
    }
  }

  /** The merge loop rehomes exactly the rows of the losing groups. */
  lemma MergeRewrite(s: Store, losers: seq<Group>, w: nat)
    requires WellFormed(s) && FetchedGroups(s, losers)
    ensures forall i :: 0 <= i < |s.contacts| ==>
      ApplyUpdates(s.contacts, LoserUpdates(losers, w))[i] == Rehome(s.contacts[i], LoserIds(losers), w)
  {
    ApplyUpdatesPointwise(s.contacts, LoserUpdates(losers, w), w);
    forall i | 0 <= i < |s.contacts|
      ensures Effect(s.contacts[i], LoserUpdates(losers, w), w) == Rehome(s.contacts[i], LoserIds(losers), w)
    {
      LoserEffectIsRehome(s, losers, w, s.contacts[i]);
    }
  }

  ghost predicate RehomedStore(s: Store, s': Store, L: set<nat>, w: nat) {
    && s'.nextId == s.nextId
    && |s'.contacts| == |s.contacts|
    && forall i :: 0 <= i < |s.contacts| ==> s'.contacts[i] == Rehome(s.contacts[i], L, w)
  }

  /** Rehoming the losers under a live primary that did not lose keeps the
      store invariant: no chain and no primary without its link rule. */
  lemma RehomePreservesWellFormed(s: Store, s': Store, L: set<nat>, w: nat)
    requires WellFormed(s) && IsLivePrimary(s.contacts, w) && w !in L
    requires RehomedStore(s, s', L, w)
    ensures WellFormed(s')
    ensures IsLivePrimary(s'.contacts, w)
  {
    assert forall i :: 0 <= i < |s.contacts| ==> s'.contacts[i].id == s.contacts[i].id;
    forall c' | c' in s'.contacts
      ensures exists i :: 0 <= i < |s.contacts| && s'.contacts[i] == c' && c' == Rehome(s.contacts[i], L, w)
    {
      var i :| 0 <= i < |s'.contacts| && s'.contacts[i] == c';
    }
    KeepsPrimary(s, s', L, w, w);
    forall c' | c' in s'.contacts && Live(c') && c'.linkedId.Some?
      ensures IsLivePrimary(s'.contacts, c'.linkedId.value)
    {
      var i :| 0 <= i < |s.contacts| && s'.contacts[i] == c' && c' == Rehome(s.contacts[i], L, w);
      var c := s.contacts[i];
      if c' != c {
      } else {
        LiveRoot(s, c);
        KeepsPrimary(s, s', L, w, c.linkedId.value);
      }
    }
  }

  /** A live primary outside the losers is still a live primary after rehoming. */
  lemma KeepsPrimary(s: Store, s': Store, L: set<nat>, w: nat, r: nat)
    requires WellFormed(s) && IsLivePrimary(s.contacts, r) && r !in L
    requires RehomedStore(s, s', L, w)
    ensures IsLivePrimary(s'.contacts, r)
  {
    var p :| p in s.contacts && p.id == r && Live(p) && p.linkPrecedence == Primary;
    var k :| 0 <= k < |s.contacts| && s.contacts[k] == p;
    assert s'.contacts[k] == p;
  }

  /** After rehoming, a live row is in the winner's group exactly when its
      root was the winner or a loser. */
  lemma RehomedGroup(s: Store, L: set<nat>, w: nat, c: Contact)
    requires WellFormed(s) && IsLivePrimary(s.contacts, w) && w !in L
    requires c in s.contacts && Live(c)
    ensures InGroupOf(Rehome(c, L, w), w) <==> RootOf(c).value in L || RootOf(c).value == w
  {
    LiveRoot(s, c);
    GroupIffRoot(s, c, w);
  }
}

=== FILE: Projection.dfy ===
/** `buildResponse`: projects a group of contacts onto the consolidated
    identity returned to the caller. */
module Projection {
  import opened Wrappers
  import opened Seqs
  import opened Contacts

  datatype Response = Response(
    primaryContactId: nat,
    emails: seq<string>,
    phoneNumbers: seq<string>,
    secondaryContactIds: seq<nat>)

  datatype ProjectionError = PrimaryContactNotFound

  /** Position of the first primary row (`contacts.find(c => c.linkPrecedence === 'primary')`). */
  function FirstPrimary(cs: seq<Contact>): (r: Option<nat>)
    ensures r.None? <==> forall c :: c in cs ==> c.linkPrecedence != Primary
    ensures r.Some? ==> r.value < |cs| && cs[r.value].linkPrecedence == Primary
    ensures r.Some? ==> forall j :: 0 <= j < r.value ==> cs[j].linkPrecedence != Primary
  {
    if |cs| == 0 then None
    else if cs[0].linkPrecedence == Primary then Some(0)
    else
      var r := FirstPrimary(cs[1..]);
      assert cs == [cs[0]] + cs[1..];
      if r.None? then None else Some(r.value + 1)
  }

  function Emails(cs: seq<Contact>): (r: seq<Option<string>>)
    ensures |r| == |cs| && forall i :: 0 <= i < |cs| ==> r[i] == cs[i].email
    ensures forall v :: v in r <==> exists c :: c in cs && c.email == v
  {
    seq(|cs|, i requires 0 <= i < |cs| => cs[i].email)
  }

  function Phones(cs: seq<Contact>): (r: seq<Option<string>>)
    ensures |r| == |cs| && forall i :: 0 <= i < |cs| ==> r[i] == cs[i].phoneNumber
    ensures forall v :: v in r <==> exists c :: c in cs && c.phoneNumber == v
  {
    seq(|cs|, i requires 0 <= i < |cs| => cs[i].phoneNumber)
  }

  function Only(xs: seq<string>, x: string): (r: seq<string>)
    ensures forall y :: y in r ==> y == x
    ensures x in xs ==> x in r
  {
    if |xs| == 0 then []
    else
      assert xs == xs[..|xs| - 1] + [xs[|xs| - 1]];
      Only(xs[..|xs| - 1], x) + (if xs[|xs| - 1] == x then [x] else [])
  }

  function AllBut(xs: seq<string>, x: string): (r: seq<string>)
    ensures forall y :: y in r <==> y in xs && y != x
  {
    if |xs| == 0 then []
    else
      assert xs == xs[..|xs| - 1] + [xs[|xs| - 1]];
      AllBut(xs[..|xs| - 1], x) + (if xs[|xs| - 1] != x then [xs[|xs| - 1]] else [])
  }

  /** The stable sort with comparator `a === x ? -1 : b === x ? 1 : 0`:
      every copy of `x` first, the rest in their original order. */
  function MoveToFront(xs: seq<string>, x: string): seq<string> {
    Only(xs, x) + AllBut(xs, x)
  }

  lemma {:induction false} OnlyOfDistinct(xs: seq<string>, x: string)
    requires Distinct(xs)
    ensures Only(xs, x) == if x in xs then [x] else []
  {
    if |xs| > 0 {
      var init := xs[..|xs| - 1];
      assert xs == init + [xs[|xs| - 1]];
      OnlyOfDistinct(init, x);
    }
  }

  lemma {:induction false} AllButKeepsOrder(xs: seq<string>, x: string, ys: seq<string>)
    requires InFirstOccurrenceOrder(xs, ys)
    ensures InFirstOccurrenceOrder(AllBut(xs, x), ys)
  {
    if |xs| > 0 {
      var init := xs[..|xs| - 1];
      var last := xs[|xs| - 1];
      assert InFirstOccurrenceOrder(init, ys);
      AllButKeepsOrder(init, x, ys);
      var a := AllBut(init, x);
      var r := AllBut(xs, x);
      forall i, j | 0 <= i < j < |r| && r[i] in ys && r[j] in ys
        ensures IndexOf(ys, r[i]) < IndexOf(ys, r[j])
      {
        if j >= |a| {
          assert r[j] == last && r[i] in init;
          var k :| 0 <= k < |init| && init[k] == r[i];
          assert xs[k] == r[i] && xs[|xs| - 1] == r[j];
        }
      }
    }
  }

  /** The de-duplicated non-null values with `lead` (when truthy and present)
      at the front and the rest in first-occurrence order. */
  ghost predicate ProjectsValues(r: seq<string>, os: seq<Option<string>>, lead: Option<string>) {
    && Distinct(r)
    && (forall x :: x in r <==> Some(x) in os)
    && if Given(lead) && lead in os then
         |r| > 0 && r[0] == lead.value && InFirstOccurrenceOrder(r[1..], Present(os))
       else
         InFirstOccurrenceOrder(r, Present(os))
  }

  lemma {:induction false} AllButDistinct(xs: seq<string>, x: string)
    requires Distinct(xs)
    ensures Distinct(AllBut(xs, x))
    ensures x !in xs ==> AllBut(xs, x) == xs
  {
    if |xs| > 0 {
      var init := xs[..|xs| - 1];
      var last := xs[|xs| - 1];
      assert xs == init + [last];
      AllButDistinct(init, x);
      assert last !in init by {
        forall k | 0 <= k < |init| ensures init[k] != last {
          assert xs[k] != xs[|xs| - 1];
        }
      }
      var a := AllBut(init, x);
      var r := AllBut(xs, x);
      forall i, j | 0 <= i < j < |r| ensures r[i] != r[j] {
        if j >= |a| {
          assert r[i] in a;
        }
      }
    }
  }

  lemma MoveToFrontProjects(os: seq<Option<string>>, lead: Option<string>)
    requires Given(lead)
    ensures ProjectsValues(MoveToFront(Dedup(Present(os)), lead.value), os, lead)
  {
    var values := Dedup(Present(os));
    var x := lead.value;
    var r := MoveToFront(values, x);
    OnlyOfDistinct(values, x);
    AllButKeepsOrder(values, x, Present(os));
    AllButDistinct(values, x);
    assert lead in os <==> x in values;
    if x in values {
      assert r == [x] + AllBut(values, x);
      assert r[1..] == AllBut(values, x);
    } else {
      assert r == values;
    }
  }

  function ProjectValues(os: seq<Option<string>>, lead: Option<string>): (r: seq<string>)
    ensures ProjectsValues(r, os, lead)
  {
    if Given(lead) then
      MoveToFrontProjects(os, lead);
      MoveToFront(Dedup(Present(os)), lead.value)
    else Dedup(Present(os))
  }

  function SecondaryIds(cs: seq<Contact>): (r: seq<nat>)
    ensures forall id :: id in r <==> exists c :: c in cs && c.linkPrecedence == Secondary && c.id == id
  {
    if |cs| == 0 then []
    else
      var init := cs[..|cs| - 1];
      var c := cs[|cs| - 1];
      assert cs == init + [c];
      SecondaryIds(init) + (if c.linkPrecedence == Secondary then [c.id] else [])
  }

  /** `secondaryContactIds` keeps input order: the projection distributes over
      concatenation. */
  lemma {:induction false} SecondaryIdsConcat(a: seq<Contact>, b: seq<Contact>)
    ensures SecondaryIds(a + b) == SecondaryIds(a) + SecondaryIds(b)
    decreases |b|
  {
    if |b| > 0 {
      var b' := b[..|b| - 1];
      assert (a + b)[..|a + b| - 1] == a + b';
      assert (a + b)[|a + b| - 1] == b[|b| - 1];
      SecondaryIdsConcat(a, b');
    } else {
      assert a + b == a;
    }
  }

  /** Rows with distinct ids give a secondary id list without repeats. */
  lemma {:induction false} SecondaryIdsDistinct(cs: seq<Contact>)
    requires UniqueIds(cs)
    ensures Distinct(SecondaryIds(cs))
    decreases |cs|
  {
    if |cs| > 0 {
      var init := cs[..|cs| - 1];
      var c := cs[|cs| - 1];
      assert UniqueIds(init);
      SecondaryIdsDistinct(init);
      forall id | id in SecondaryIds(init)
        ensures id != c.id
      {
        var d :| d in init && d.linkPrecedence == Secondary && d.id == id;
        var i :| 0 <= i < |init| && init[i] == d;
        assert cs[i] == d;
      }
      var ids := SecondaryIds(init);
      var r := SecondaryIds(cs);
      assert r == ids + (if c.linkPrecedence == Secondary then [c.id] else []);
      forall i, j | 0 <= i < j < |r|
        ensures r[i] != r[j]
      {
        assert r[i] == ids[i];
        if j == |ids| {
          assert r[i] in ids;
        } else {
          assert r[j] == ids[j];
        }
      }
    }
  }

  /** `buildResponse`: fails when the group has no primary row; otherwise the
      response is led by the first primary row. */
  function BuildResponse(cs: seq<Contact>): (r: Result<Response, ProjectionError>)
    ensures r.Failure? <==> forall c :: c in cs ==> c.linkPrecedence != Primary
    ensures r.Success? ==>
      var p := FirstPrimary(cs).value;
      && r.value.primaryContactId == cs[p].id
      && ProjectsValues(r.value.emails, Emails(cs), cs[p].email)
      && ProjectsValues(r.value.phoneNumbers, Phones(cs), cs[p].phoneNumber)
      && (forall id :: id in r.value.secondaryContactIds <==>
            exists c :: c in cs && c.linkPrecedence == Secondary && c.id == id)
      && r.value.secondaryContactIds == SecondaryIds(cs)
  {
    match FirstPrimary(cs)
    case None => Failure(PrimaryContactNotFound)
    case Some(p) =>
      var primary := cs[p];
      Success(Response(
        primary.id,
        ProjectValues(Emails(cs), primary.email),
        ProjectValues(Phones(cs), primary.phoneNumber),
        SecondaryIds(cs)))
  }
}

=== FILE: RateLimit.dfy ===
/** `basicRateLimit`: a fixed-window request counter per client. The table
    maps a client key to its count and the end of its window; the clock
    reading `now` is a parameter. */
module RateLimit {

  /** `{ count, resetTime }`; times are milliseconds. */
  datatype Entry = Entry(count: nat, resetTime: int)

  type Table = map<string, Entry>

  /** 429 with `retryAfter` seconds, or admitted with the three
      `X-RateLimit-*` header values (the reset instant as milliseconds). */
  datatype Verdict =
    | Limited(retryAfter: int)
    | Admitted(limit: int, remaining: int, reset: int)

  datatype Outcome = Outcome(table: Table, verdict: Verdict)

  /** The defaults of `basicRateLimit()`: 100 requests per 15 minutes. */
  const DefaultMaxRequests: int := 100
  const DefaultWindowMs: int := 15 * 60 * 1000

  /** `Math.ceil(x / 1000)` on integers, for either sign of `x`. */
  function CeilSeconds(x: int): (r: int)
    ensures 1000 * (r - 1) < x <= 1000 * r
  {
    -((-x) / 1000)
  }

  /** The clean-up loop: drop every entry whose window ended before `now`. */
  function Cleanup(t: Table, now: int): (r: Table)
    ensures forall k :: k in r <==> k in t && now <= t[k].resetTime
    ensures forall k :: k in r ==> r[k] == t[k]
  {
    map k | k in t && !(now > t[k].resetTime) :: t[k]
  }

  /** The entry the request is counted against: the stored one, or a fresh
      window of length `windowMs` when there is none or it has ended. */
  function CurrentEntry(t: Table, client: string, now: int, windowMs: int): Entry {
    if client !in t || now > t[client].resetTime then Entry(0, now + windowMs) else t[client]
  }

  /** One request of `client` at time `now`. */
  function Step(t: Table, client: string, now: int, maxRequests: int, windowMs: int): (r: Outcome)
    ensures r.table.Keys == Cleanup(t, now).Keys + {client}
    ensures var e := CurrentEntry(Cleanup(t, now), client, now, windowMs);
      && (r.verdict.Limited? <==> e.count >= maxRequests)
      && (r.verdict.Limited? ==> r.verdict.retryAfter == CeilSeconds(e.resetTime - now) && r.table[client] == e)
      && (r.verdict.Admitted? ==>
            && r.table[client] == e.(count := e.count + 1)
            && r.verdict == Admitted(maxRequests, maxRequests - r.table[client].count, e.resetTime)
            && 0 <= r.verdict.remaining < maxRequests)
    ensures forall k :: k in r.table && k != client ==> r.table[k] == t[k] && now <= t[k].resetTime
  {
    var t1 := Cleanup(t, now);
    var e := CurrentEntry(t1, client, now, windowMs);
    var t2 := t1[client := e];
    if e.count >= maxRequests then
      Outcome(t2, Limited(CeilSeconds(e.resetTime - now)))
    else
      var e' := e.(count := e.count + 1);
      Outcome(t2[client := e'], Admitted(maxRequests, maxRequests - e'.count, e'.resetTime))
  }

  /** After clean-up no stored entry has expired, so the expiry test in the
      get-or-create branch only ever sees a missing entry. */
  lemma CleanupLeavesNoExpired(t: Table, client: string, now: int, windowMs: int)
    ensures var t1 := Cleanup(t, now);
      CurrentEntry(t1, client, now, windowMs) == if client in t1 then t1[client] else Entry(0, now + windowMs)
  {
  }

  /** Every count is within the limit. */
  ghost predicate Bounded(t: Table, maxRequests: int) {
    forall k :: k in t ==> t[k].count <= maxRequests
  }

  /** With a non-negative limit the bound is kept by every request. */
  lemma StepKeepsBound(t: Table, client: string, now: int, maxRequests: int, windowMs: int)
    requires maxRequests >= 0 && Bounded(t, maxRequests)
    ensures Bounded(Step(t, client, now, maxRequests, windowMs).table, maxRequests)
  {
  }

  /** A request by someone else does not touch `c`'s entry while `c`'s window is open. */
  lemma OtherClientKeeps(t: Table, client: string, c: string, now: int, maxRequests: int, windowMs: int)
    requires c != client && c in t && now <= t[c].resetTime
    ensures var r := Step(t, client, now, maxRequests, windowMs).table;
      c in r && r[c] == t[c]
  {
  }

  // ----- runs of requests -----

  datatype Request = Request(client: string, now: int)

  /** Feed the requests in order; also count the admissions of client `c`. */
  function Run(t: Table, reqs: seq<Request>, c: string, maxRequests: int, windowMs: int): (r: (Table, nat))
    decreases |reqs|
  {
    if |reqs| == 0 then (t, 0)
    else
      var o := Step(t, reqs[0].client, reqs[0].now, maxRequests, windowMs);
      var rest := Run(o.table, reqs[1..], c, maxRequests, windowMs);
      (rest.0, rest.1 + if reqs[0].client == c && o.verdict.Admitted? then 1 else 0)
  }

  /** While every request falls inside `c`'s open window, `c`'s entry stays
      and each admission of `c` adds exactly one to its count. */
  lemma {:induction false} RunWithinWindow(t: Table, reqs: seq<Request>, c: string, maxRequests: int, windowMs: int)
    requires c in t
    requires forall i :: 0 <= i < |reqs| ==> reqs[i].now <= t[c].resetTime
    ensures var r := Run(t, reqs, c, maxRequests, windowMs);
      && c in r.0
      && r.0[c].resetTime == t[c].resetTime
      && r.0[c].count == t[c].count + r.1
    decreases |reqs|
  {
    if |reqs| > 0 {
      var o := Step(t, reqs[0].client, reqs[0].now, maxRequests, windowMs);
      assert c in o.table && o.table[c].resetTime == t[c].resetTime;
      assert o.table[c].count == t[c].count + if reqs[0].client == c && o.verdict.Admitted? then 1 else 0;
      RunWithinWindow(o.table, reqs[1..], c, maxRequests, windowMs);
    }
  }

  lemma {:induction false} RunKeepsBound(t: Table, reqs: seq<Request>, c: string, maxRequests: int, windowMs: int)
    requires maxRequests >= 0 && Bounded(t, maxRequests)
    ensures Bounded(Run(t, reqs, c, maxRequests, windowMs).0, maxRequests)
    decreases |reqs|
  {
    if |reqs| > 0 {
      var o := Step(t, reqs[0].client, reqs[0].now, maxRequests, windowMs);
      StepKeepsBound(t, reqs[0].client, reqs[0].now, maxRequests, windowMs);
      RunKeepsBound(o.table, reqs[1..], c, maxRequests, windowMs);
    }
  }

  /** At most `maxRequests` requests of one client are admitted in one window:
      after the request that opens or continues `c`'s window, every later
      request inside that window is counted against the same entry. */
  lemma WindowAdmissions(t: Table, reqs: seq<Request>, c: string, maxRequests: int, windowMs: int)
    requires maxRequests >= 0 && Bounded(t, maxRequests)
    requires c in t
    requires forall i :: 0 <= i < |reqs| ==> reqs[i].now <= t[c].resetTime
    ensures Run(t, reqs, c, maxRequests, windowMs).1 <= maxRequests - t[c].count
  {
    RunWithinWindow(t, reqs, c, maxRequests, windowMs);
    RunKeepsBound(t, reqs, c, maxRequests, windowMs);
  }

  /** A client with no open window gets at most `maxRequests` admissions in
      the window its first request opens. */
  lemma FreshWindowAdmissions(t: Table, c: string, start: int, reqs: seq<Request>, maxRequests: int, windowMs: int)
    requires maxRequests >= 0 && Bounded(t, maxRequests)
    requires c !in Cleanup(t, start)
    requires forall i :: 0 <= i < |reqs| ==> reqs[i].now <= start + windowMs
    ensures Run(t, [Request(c, start)] + reqs, c, maxRequests, windowMs).1 <= maxRequests
  {
    var o := Step(t, c, start, maxRequests, windowMs);
    StepKeepsBound(t, c, start, maxRequests, windowMs);
    assert ([Request(c, start)] + reqs)[1..] == reqs;
    WindowAdmissions(o.table, reqs, c, maxRequests, windowMs);
  }

  /** With the defaults of `basicRateLimit()`, a client whose window has
      ended is admitted at most 100 times in the 15 minutes its next request opens. */
  lemma DefaultWindowAdmissions(t: Table, c: string, start: int, reqs: seq<Request>)
    requires Bounded(t, DefaultMaxRequests)
    requires c !in Cleanup(t, start)
    requires forall i :: 0 <= i < |reqs| ==> reqs[i].now <= start + 900000
    ensures Run(t, [Request(c, start)] + reqs, c, DefaultMaxRequests, DefaultWindowMs).1 <= 100
  {
    FreshWindowAdmissions(t, c, start, reqs, DefaultMaxRequests, DefaultWindowMs);
  }
}

=== FILE: Reconcile.dfy ===
/** `ContactService.identify` and its helpers, as pure functions from a store
    to an updated store plus a response, or an error. */
module Reconcile {
  import opened Wrappers
  import opened Seqs
  import opened Sorting
  import opened Contacts
  import opened Projection

  datatype IdentifyError =
    | MissingContactFields   // neither email nor phoneNumber supplied
    | NoPrimaryGroup         // no matched root's own row is among its live group rows (`groups[0]` undefined)
    | PrimaryContactMissing(written: Store)  // `buildResponse` found no primary row; the writes before it stay

  /** A root's primary row and the group fetched for it. */
  datatype Group = Group(primary: Contact, allContacts: seq<Contact>)

  /** The store after reconciliation, the target group's primary id, and the
      contact list handed to `buildResponse`. */
  datatype Resolved = Resolved(store: Store, primaryId: nat, group: seq<Contact>)

  datatype Outcome = Outcome(store: Store, response: Response)

  datatype Created = Created(store: Store, contact: Contact)

  /** One `prisma.contact.update` of the merge: set `linkedId`, and demote to
      secondary when `demote` holds. */
  datatype LinkUpdate = LinkUpdate(id: nat, linkedId: nat, demote: bool)

  // ----- grouping -----

  function RootsOf(cs: seq<Contact>): (r: seq<Option<nat>>)
    ensures forall v :: v in r <==> exists c :: c in cs && RootOf(c) == v
  {
    var r := seq(|cs|, i requires 0 <= i < |cs| => RootOf(cs[i]));
    assert forall i :: 0 <= i < |cs| ==> r[i] == RootOf(cs[i]);
    assert forall c :: c in cs ==> RootOf(c) in r by {
      forall c | c in cs ensures RootOf(c) in r {
        var i :| 0 <= i < |cs| && cs[i] == c;
        assert r[i] == RootOf(c);
      }
    }
    r
  }

  /** The `primaryIds` set of `groupContactsByPrimary`, in insertion order. */
  function CollectRoots(cs: seq<Contact>): (r: seq<nat>)
    ensures Distinct(r)
    ensures forall x :: x in r <==> exists c :: c in cs && RootOf(c) == Some(x)
    ensures InFirstOccurrenceOrder(r, Present(RootsOf(cs)))
  {
    Dedup(Present(RootsOf(cs)))
  }

  /** `allContacts.find(c => c.id === id)`. */
  function FindById(cs: seq<Contact>, id: nat): (r: Option<Contact>)
    ensures r.Some? ==> r.value in cs && r.value.id == id
    ensures r.None? <==> forall c :: c in cs ==> c.id != id
  {
    if |cs| == 0 then None
    else if cs[0].id == id then Some(cs[0])
    else
      assert cs == [cs[0]] + cs[1..];
      FindById(cs[1..], id)
  }

  /** `groupContactsByPrimary` after the roots are collected: fetch each
      root's group and keep it when the root row is found in it. */
  function GroupByPrimary(s: Store, roots: seq<nat>): (r: seq<Group>)
    ensures |r| <= |roots|
    ensures forall g :: g in r ==>
      && g.primary.id in roots
      && g.primary in g.allContacts
      && g.allContacts == FetchGroup(s, g.primary.id)
  {
    if |roots| == 0 then []
    else
      var members := FetchGroup(s, roots[0]);
      var rest := GroupByPrimary(s, roots[1..]);
      match FindById(members, roots[0])
      case Some(p) => [Group(p, members)] + rest
      case None => rest
  }

  /** No root is lost: every root whose own row the group query returns
      contributes its group. */
  lemma {:induction false} GroupByPrimaryComplete(s: Store, roots: seq<nat>)
    ensures forall x :: x in roots && FindById(FetchGroup(s, x), x).Some? ==>
      Group(FindById(FetchGroup(s, x), x).value, FetchGroup(s, x)) in GroupByPrimary(s, roots)
    decreases |roots|
  {
    if |roots| > 0 {
      GroupByPrimaryComplete(s, roots[1..]);
      forall x | x in roots && FindById(FetchGroup(s, x), x).Some?
        ensures Group(FindById(FetchGroup(s, x), x).value, FetchGroup(s, x)) in GroupByPrimary(s, roots)
      {
        if x != roots[0] {
          assert x in roots[1..];
        }
      }
    }
  }

  /** `gs` lists groups of roots in `roots`, in the order of those roots. */
  ghost predicate InRootOrder(roots: seq<nat>, gs: seq<Group>) {
    && (forall g :: g in gs ==> g.primary.id in roots)
    && forall i, j :: 0 <= i < j < |gs| ==> IndexOf(roots, gs[i].primary.id) < IndexOf(roots, gs[j].primary.id)
  }

  /** The groups come out in the order of their roots. */
  lemma {:induction false} GroupByPrimaryInRootOrder(s: Store, roots: seq<nat>)
    requires Distinct(roots)
    ensures InRootOrder(roots, GroupByPrimary(s, roots))
    decreases |roots|
  {
    if |roots| > 0 {
      var tail := roots[1..];
      assert Distinct(tail);
      GroupByPrimaryInRootOrder(s, tail);
      var rest := GroupByPrimary(s, tail);
      match FindById(FetchGroup(s, roots[0]), roots[0])
      case None =>
        InRootOrderShift(roots, rest);
      case Some(p) =>
        InRootOrderShift(roots, rest);
        InRootOrderCons(roots, Group(p, FetchGroup(s, roots[0])), rest);
    }
  }

  /** Order among the roots of the tail carries over to the whole list. */
  lemma InRootOrderShift(roots: seq<nat>, gs: seq<Group>)
    requires Distinct(roots) && |roots| > 0
    requires InRootOrder(roots[1..], gs)
    ensures InRootOrder(roots, gs)
    ensures forall g :: g in gs ==> 0 < IndexOf(roots, g.primary.id)
  {
    forall g | g in gs
      ensures g.primary.id in roots && IndexOf(roots, g.primary.id) == 1 + IndexOf(roots[1..], g.primary.id)
    {
      ShiftIndex(roots, g.primary.id);
    }
    forall i, j | 0 <= i < j < |gs|
      ensures IndexOf(roots, gs[i].primary.id) < IndexOf(roots, gs[j].primary.id)
    {
      assert gs[i] in gs && gs[j] in gs;
    }
  }

  lemma ShiftIndex(roots: seq<nat>, x: nat)
    requires Distinct(roots) && |roots| > 0 && x in roots[1..]
    ensures x in roots && IndexOf(roots, x) == 1 + IndexOf(roots[1..], x)
  {
    assert roots[0] !in roots[1..];
  }

  /** The head root's group may go in front of the groups of later roots. */
  lemma InRootOrderCons(roots: seq<nat>, g: Group, gs: seq<Group>)
    requires |roots| > 0 && g.primary.id == roots[0]
    requires InRootOrder(roots, gs)
    requires forall h :: h in gs ==> 0 < IndexOf(roots, h.primary.id)
    ensures InRootOrder(roots, [g] + gs)
  {
    var r := [g] + gs;
    forall i, j | 0 <= i < j < |r|
      ensures IndexOf(roots, r[i].primary.id) < IndexOf(roots, r[j].primary.id)
    {
      assert r[j] == gs[j - 1];
      if i > 0 {
        assert r[i] == gs[i - 1];
      }
    }
  }

  // ----- the new-information check -----

  function HasPair(cs: seq<Contact>, email: Option<string>, phoneNumber: Option<string>): (b: bool)
    ensures b <==> exists c :: c in cs && c.email == email && c.phoneNumber == phoneNumber
  {
    if |cs| == 0 then false
    else
      assert cs == [cs[0]] + cs[1..];
      (cs[0].email == email && cs[0].phoneNumber == phoneNumber) || HasPair(cs[1..], email, phoneNumber)
  }

  /** `needsNewSecondaryContact`: no when some row holds exactly the requested
      pair (falsy inputs read as null); otherwise yes exactly when a supplied
      email or a supplied phone number is not yet in the group. */
  function NeedsNewSecondaryContact(cs: seq<Contact>, email: Option<string>, phoneNumber: Option<string>): (b: bool)
    ensures (exists c :: c in cs && c.email == OrNull(email) && c.phoneNumber == OrNull(phoneNumber)) ==> !b
    ensures !(exists c :: c in cs && c.email == OrNull(email) && c.phoneNumber == OrNull(phoneNumber)) ==>
      (b <==> ((Given(email) && !(exists c :: c in cs && c.email == email))
               || (Given(phoneNumber) && !(exists c :: c in cs && c.phoneNumber == phoneNumber))))
    ensures !b ==> (Given(email) ==> exists c :: c in cs && c.email == email)
    ensures !b ==> (Given(phoneNumber) ==> exists c :: c in cs && c.phoneNumber == phoneNumber)
  {
    if HasPair(cs, OrNull(email), OrNull(phoneNumber)) then false
    else
      var hasNewEmail := if Given(email) then email !in Emails(cs) else false;
      var hasNewPhone := if Given(phoneNumber) then phoneNumber !in Phones(cs) else false;
      hasNewEmail || hasNewPhone
  }

  // ----- creation -----

  /** `createPrimaryContact`: a fresh primary row holding the normalised pair. */
  function CreatePrimaryContact(s: Store, email: Option<string>, phoneNumber: Option<string>, now: nat): (r: Created)
    ensures AppendsOne(s, r.store, r.contact)
    ensures r.contact.id == s.nextId
    ensures WellFormed(s) ==> forall c :: c in s.contacts ==> c.id != r.contact.id
    ensures Live(r.contact) && r.contact.linkPrecedence == Primary && r.contact.linkedId.None?
    ensures r.contact.email == OrNull(email) && r.contact.phoneNumber == OrNull(phoneNumber)
    ensures r.contact.createdAt == now
  {
    var c := Contact(s.nextId, OrNull(email), OrNull(phoneNumber), None, Primary, now, None);
    Created(Insert(s, c), c)
  }

  /** `createSecondaryContact`: a fresh secondary row linked to `primaryId`. */
  function CreateSecondaryContact(s: Store, email: Option<string>, phoneNumber: Option<string>, primaryId: nat, now: nat): (r: Created)
    ensures AppendsOne(s, r.store, r.contact)
    ensures r.contact.id == s.nextId
    ensures WellFormed(s) ==> forall c :: c in s.contacts ==> c.id != r.contact.id
    ensures Live(r.contact) && r.contact.linkPrecedence == Secondary && r.contact.linkedId == Some(primaryId)
    ensures IsLivePrimary(s.contacts, primaryId) ==> IsLivePrimary(r.store.contacts, primaryId)
    ensures r.contact.email == OrNull(email) && r.contact.phoneNumber == OrNull(phoneNumber)
    ensures r.contact.createdAt == now
  {
    var c := Contact(s.nextId, OrNull(email), OrNull(phoneNumber), Some(primaryId), Secondary, now, None);
    var s' := Insert(s, c);
    assert IsLivePrimary(s.contacts, primaryId) ==> IsLivePrimary(s'.contacts, primaryId) by {
      if IsLivePrimary(s.contacts, primaryId) {
        var p :| p in s.contacts && p.id == primaryId && Live(p) && p.linkPrecedence == Primary;
        assert p in s'.contacts;
      }
    }
    Created(s', c)
  }

  /** A created primary row keeps the store well-formed, and nothing already
      stored has its id or links to it. */
  lemma CreatePrimaryPreservesWellFormed(s: Store, email: Option<string>, phoneNumber: Option<string>, now: nat)
    requires WellFormed(s)
    ensures WellFormed(CreatePrimaryContact(s, email, phoneNumber, now).store)
    ensures forall c :: c in s.contacts && Live(c) ==> !InGroupOf(c, CreatePrimaryContact(s, email, phoneNumber, now).contact.id)
  {
    var r := CreatePrimaryContact(s, email, phoneNumber, now);
    InsertPreservesWellFormed(s, r.contact);
    FreshIdNotLinked(s);
  }

  /** A secondary row linked to a live primary keeps the store well-formed. */
  lemma CreateSecondaryPreservesWellFormed(s: Store, email: Option<string>, phoneNumber: Option<string>, primaryId: nat, now: nat)
    requires WellFormed(s) && IsLivePrimary(s.contacts, primaryId)
    ensures WellFormed(CreateSecondaryContact(s, email, phoneNumber, primaryId, now).store)
  {
    InsertPreservesWellFormed(s, CreateSecondaryContact(s, email, phoneNumber, primaryId, now).contact);
  }

  lemma FreshIdNotLinked(s: Store)
    requires WellFormed(s)
    ensures forall c :: c in s.contacts && Live(c) ==> !InGroupOf(c, s.nextId)
  {
    forall c | c in s.contacts && Live(c) && c.linkedId.Some?
      ensures c.linkedId != Some(s.nextId)
    {
      var p :| p in s.contacts && p.id == c.linkedId.value && Live(p) && p.linkPrecedence == Primary;
    }
  }

  lemma InsertPreservesWellFormed(s: Store, c: Contact)
    requires WellFormed(s) && c.id == s.nextId && Live(c)
    requires c.linkedId.None? <==> c.linkPrecedence == Primary
    requires c.linkedId.Some? ==> IsLivePrimary(s.contacts, c.linkedId.value)
    ensures WellFormed(Insert(s, c))
  {
    var cs := s.contacts + [c];
    forall x | x in cs && Live(x) && x.linkedId.Some?
      ensures IsLivePrimary(cs, x.linkedId.value)
    {
      var p :| p in s.contacts && p.id == x.linkedId.value && Live(p) && p.linkPrecedence == Primary;
      assert p in cs;
    }
  }

  // ----- merging -----

  function PrimaryCreatedAt(g: Group): int {
    g.primary.createdAt
  }

  /** Relinks the non-root members of a losing group to the winner. */
  function MemberUpdates(members: seq<Contact>, loserId: nat, winnerId: nat): (r: seq<LinkUpdate>)
    ensures forall u :: u in r ==> u.linkedId == winnerId && !u.demote
    ensures forall u :: u in r ==> exists c :: c in members && c.id == u.id && c.id != loserId
    ensures forall c :: c in members && c.id != loserId ==> LinkUpdate(c.id, winnerId, false) in r
  {
    if |members| == 0 then []
    else
      assert members == [members[0]] + members[1..];
      (if members[0].id != loserId then [LinkUpdate(members[0].id, winnerId, false)] else [])
      + MemberUpdates(members[1..], loserId, winnerId)
  }

  /** The updates of the merge loop, in issue order: for each losing group,
      demote its primary, then relink its other members. */
  function LoserUpdates(losers: seq<Group>, winnerId: nat): (r: seq<LinkUpdate>)
    ensures forall u :: u in r ==> u.linkedId == winnerId
    ensures forall g :: g in losers ==> LinkUpdate(g.primary.id, winnerId, true) in r
    ensures forall u :: u in r && u.demote ==> exists g :: g in losers && g.primary.id == u.id
    ensures forall g, c :: g in losers && c in g.allContacts && c.id != g.primary.id ==> LinkUpdate(c.id, winnerId, false) in r
    ensures forall u :: u in r && !u.demote ==>
      exists g, c :: g in losers && c in g.allContacts && c.id == u.id && c.id != g.primary.id
  {
    if |losers| == 0 then []
    else
      assert losers == [losers[0]] + losers[1..];
      var g := losers[0];
      [LinkUpdate(g.primary.id, winnerId, true)]
      + MemberUpdates(g.allContacts, g.primary.id, winnerId)
      + LoserUpdates(losers[1..], winnerId)
  }

  function Relink(c: Contact, u: LinkUpdate): Contact {
    c.(linkedId := Some(u.linkedId), linkPrecedence := if u.demote then Secondary else c.linkPrecedence)
  }

  /** `prisma.contact.update({ where: { id } })` on every row with that id. */
  function ApplyUpdate(cs: seq<Contact>, u: LinkUpdate): (r: seq<Contact>)
    ensures |r| == |cs|
  {
    seq(|cs|, i requires 0 <= i < |cs| => if cs[i].id == u.id then Relink(cs[i], u) else cs[i])
  }

  function ApplyUpdates(cs: seq<Contact>, us: seq<LinkUpdate>): (r: seq<Contact>)
    ensures |r| == |cs|
    decreases |us|
  {
    if |us| == 0 then cs else ApplyUpdates(ApplyUpdate(cs, us[0]), us[1..])
  }

  /** `mergePrimaryGroups`: the group whose primary was created first wins
      (stable order on ties); the other primaries and their members are
      relinked to it; the merged group is fetched again and may gain a new
      secondary row. An empty group list fails as `groups[0]` is undefined. */
  function MergePrimaryGroups(s: Store, groups: seq<Group>, email: Option<string>, phoneNumber: Option<string>, now: nat): (r: Result<Resolved, IdentifyError>)
    ensures r.Failure? <==> |groups| == 0
    ensures r.Success? ==> exists k :: IsFirstMinimum(groups, PrimaryCreatedAt, k) && r.value.primaryId == groups[k].primary.id
  {
    if |groups| == 0 then Failure(NoPrimaryGroup)
    else
      var ordered := SortBy(groups, PrimaryCreatedAt);
      SortByMembers(groups, PrimaryCreatedAt);
      SortByHeadExists(groups, PrimaryCreatedAt);
      var winner := ordered[0].primary;
      var merged := Store(ApplyUpdates(s.contacts, LoserUpdates(ordered[1..], winner.id)), s.nextId);
      var group := FetchGroup(merged, winner.id);
      if NeedsNewSecondaryContact(group, email, phoneNumber) then
        var created := CreateSecondaryContact(merged, email, phoneNumber, winner.id, now);
        Success(Resolved(created.store, winner.id, group + [created.contact]))
      else
        Success(Resolved(merged, winner.id, group))
  }

  // ----- identify -----

  /** Everything `identify` does before `buildResponse`: match, resolve roots,
      then create, extend or merge. */
  function ReconcileContacts(s: Store, email: Option<string>, phoneNumber: Option<string>, now: nat): (r: Result<Resolved, IdentifyError>)
    ensures r.Failure? ==> r.error == NoPrimaryGroup
    ensures var existing := FindExistingContacts(s, email, phoneNumber);
      r.Failure? <==> |existing| > 0 && GroupByPrimary(s, CollectRoots(existing)) == []
  {
    var existing := FindExistingContacts(s, email, phoneNumber);
    if |existing| == 0 then
      var created := CreatePrimaryContact(s, email, phoneNumber, now);
      Success(Resolved(created.store, created.contact.id, [created.contact]))
    else
      var groups := GroupByPrimary(s, CollectRoots(existing));
      if |groups| == 1 then
        var g := groups[0];
        if NeedsNewSecondaryContact(g.allContacts, email, phoneNumber) then
          var created := CreateSecondaryContact(s, email, phoneNumber, g.primary.id, now);
          Success(Resolved(created.store, g.primary.id, g.allContacts + [created.contact]))
        else
          Success(Resolved(s, g.primary.id, g.allContacts))
      else
        MergePrimaryGroups(s, groups, email, phoneNumber, now)
  }

  /** `identify`: fails exactly when neither field is supplied (truthy);
      otherwise reconciles and projects the target group. `now` is the clock
      reading used as `createdAt` of a row it inserts. */
  function Identify(s: Store, email: Option<string>, phoneNumber: Option<string>, now: nat): (r: Result<Outcome, IdentifyError>)
    ensures r == Failure(MissingContactFields) <==> !Given(email) && !Given(phoneNumber)
  {
    if !Given(email) && !Given(phoneNumber) then Failure(MissingContactFields)
    else
      match ReconcileContacts(s, email, phoneNumber, now)
      case Failure(e) => Failure(e)
      case Success(t) =>
        match BuildResponse(t.group)
        case Failure(_) => Failure(PrimaryContactMissing(t.store))
        case Success(response) => Success(Outcome(t.store, response))
  }
}

=== FILE: Seqs.dfy ===
/** Sequence helpers shared by the model: distinctness, first occurrence,
    order-preserving de-duplication (the model of `Array.from(new Set(xs))`)
    and the null filter. */
module Seqs {
  import opened Wrappers

  ghost predicate Distinct<T>(xs: seq<T>) {
    forall i, j :: 0 <= i < j < |xs| ==> xs[i] != xs[j]
  }

  /** Index of the first occurrence of `x` in `xs`. */
  function IndexOf<T(==)>(xs: seq<T>, x: T): (k: nat)
    requires x in xs
    ensures k < |xs| && xs[k] == x
    ensures forall j :: 0 <= j < k ==> xs[j] != x
  {
    if xs[0] == x then 0 else 1 + IndexOf(xs[1..], x)
  }

  /** The elements of `r` appear in the order of their first occurrence in `xs`. */
  ghost predicate InFirstOccurrenceOrder<T>(r: seq<T>, xs: seq<T>) {
    forall i, j :: 0 <= i < j < |r| && r[i] in xs && r[j] in xs ==> IndexOf(xs, r[i]) < IndexOf(xs, r[j])
  }

  lemma {:induction false} IndexOfPrefix<T>(xs: seq<T>, k: nat, y: T)
    requires k <= |xs| && y in xs[..k]
    ensures y in xs && IndexOf(xs, y) == IndexOf(xs[..k], y) < k
  {
    if xs[0] != y {
      assert xs[..k][1..] == xs[1..][..k - 1];
      IndexOfPrefix(xs[1..], k - 1, y);
    }
  }

  /** Keeps the first occurrence of every element, in order. */
  function Dedup<T(==,!new)>(xs: seq<T>): (r: seq<T>)
    ensures Distinct(r)
    ensures forall x :: x in r <==> x in xs
    ensures InFirstOccurrenceOrder(r, xs)
  {
    if |xs| == 0 then []
    else
      var init := xs[..|xs| - 1];
      var x := xs[|xs| - 1];
      var d := Dedup(init);
      assert xs == init + [x];
      DedupOrderStep(xs, d, x);
      if x in d then d else d + [x]
  }

  lemma DedupOrderStep<T(!new)>(xs: seq<T>, d: seq<T>, x: T)
    requires |xs| > 0 && x == xs[|xs| - 1]
    requires forall y :: y in d <==> y in xs[..|xs| - 1]
    requires InFirstOccurrenceOrder(d, xs[..|xs| - 1])
    ensures InFirstOccurrenceOrder(d, xs)
    ensures x !in d ==> InFirstOccurrenceOrder(d + [x], xs)
  {
    var n := |xs| - 1;
    forall y | y in d
      ensures IndexOf(xs, y) == IndexOf(xs[..n], y) < n
    {
      IndexOfPrefix(xs, n, y);
    }
    if x !in d {
      assert x !in xs[..n];
      assert IndexOf(xs, x) == n;
      var r := d + [x];
      forall i, j | 0 <= i < j < |r| && r[i] in xs && r[j] in xs
        ensures IndexOf(xs, r[i]) < IndexOf(xs, r[j])
      {
        assert r[i] in d;
        if j < |d| {
          assert r[j] in d;
          assert IndexOf(xs[..n], r[i]) < IndexOf(xs[..n], r[j]);
        }
      }
    }
  }

  /** The non-null values, in order: the model of `.filter(v => v !== null)`. */
  function Present<T(!new)>(os: seq<Option<T>>): (r: seq<T>)
    ensures forall x :: x in r <==> Some(x) in os
  {
    if |os| == 0 then []
    else
      assert os == os[..|os| - 1] + [os[|os| - 1]];
      Present(os[..|os| - 1]) + (if os[|os| - 1].Some? then [os[|os| - 1].value] else [])
  }

  lemma {:induction false} DistinctMultiplicity<T>(xs: seq<T>, v: T)
    requires Distinct(xs)
    ensures multiset(xs)[v] <= 1
  {
    if |xs| > 0 {
      var init := xs[..|xs| - 1];
      var last := xs[|xs| - 1];
      assert xs == init + [last];
      DistinctMultiplicity(init, v);
      if v == last {
        assert last !in init by {
          forall k | 0 <= k < |init| ensures init[k] != last {
            assert xs[k] != xs[|xs| - 1];
          }
        }
      }
    }
  }

  lemma RepeatMultiplicity<T>(xs: seq<T>, i: nat, j: nat)
    requires i < j < |xs| && xs[i] == xs[j]
    ensures multiset(xs)[xs[i]] >= 2
  {
    assert xs == xs[..j] + [xs[j]] + xs[j + 1..];
    assert xs[i] in xs[..j];
  }

  /** A permutation of a sequence without repetitions has none either. */
  lemma PermutationKeepsDistinct<T>(a: seq<T>, b: seq<T>)
    requires multiset(a) == multiset(b) && Distinct(b)
    ensures Distinct(a)
  {
    forall i, j | 0 <= i < j < |a|
      ensures a[i] != a[j]
    {
      if a[i] == a[j] {
        RepeatMultiplicity(a, i, j);
        DistinctMultiplicity(b, a[i]);
      }
    }
  }

  /** A sequence with no members is empty. */
  lemma NoMemberEmpty<T>(xs: seq<T>)
    requires forall x :: x !in xs
    ensures xs == []
  {
    if |xs| > 0 {
      assert false by { HeadMember(xs); }
    }
  }

  lemma HeadMember<T>(xs: seq<T>)
    requires |xs| > 0
    ensures xs[0] in xs
  {
  }

  /** A duplicate-free sequence of one repeated value has at most one element. */
  lemma DistinctConstant<T>(xs: seq<T>, x: T)
    requires Distinct(xs) && forall j :: 0 <= j < |xs| ==> xs[j] == x
    ensures |xs| <= 1
  {
    if |xs| > 1 {
      assert false by { FirstTwoEqual(xs, x); }
    }
  }

  lemma FirstTwoEqual<T>(xs: seq<T>, x: T)
    requires |xs| > 1 && forall j :: 0 <= j < |xs| ==> xs[j] == x
    ensures xs[0] == xs[1]
  {
  }
}

=== FILE: Sorting.dfy ===
/** A stable sort by an integer key: the model of `orderBy: { createdAt: 'asc' }`
    and of `Array.prototype.sort` with a key comparator (stable since ES2019).
    Ties keep their input order. */
module Sorting {

  ghost predicate SortedBy<T>(xs: seq<T>, key: T -> int) {
    forall i, j :: 0 <= i < j < |xs| ==> key(xs[i]) <= key(xs[j])
  }

  /** `i` is the position of the first element of `xs` whose key is minimal. */
  ghost predicate IsFirstMinimum<T>(xs: seq<T>, key: T -> int, i: int) {
    && 0 <= i < |xs|
    && (forall j :: 0 <= j < |xs| ==> key(xs[i]) <= key(xs[j]))
    && (forall j :: 0 <= j < i ==> key(xs[i]) < key(xs[j]))
  }

  /** Places `x` after every element of `xs` whose key is not larger. */
  function InsertLast<T>(xs: seq<T>, x: T, key: T -> int): (r: seq<T>)
    ensures multiset(r) == multiset(xs) + multiset{x}
    decreases |xs|
  {
    if |xs| == 0 || key(xs[|xs| - 1]) <= key(x) then xs + [x]
    else
      assert xs == xs[..|xs| - 1] + [xs[|xs| - 1]];
      InsertLast(xs[..|xs| - 1], x, key) + [xs[|xs| - 1]]
  }

  lemma {:induction false} InsertLastSorted<T>(xs: seq<T>, x: T, key: T -> int)
    requires SortedBy(xs, key)
    ensures SortedBy(InsertLast(xs, x, key), key)
    decreases |xs|
  {
    if |xs| == 0 || key(xs[|xs| - 1]) <= key(x) {
    } else {
      var init := xs[..|xs| - 1];
      var last := xs[|xs| - 1];
      InsertLastSorted(init, x, key);
      var r := InsertLast(init, x, key);
      forall i | 0 <= i < |r|
        ensures key(r[i]) <= key(last)
      {
        assert r[i] in multiset(r);
        assert r[i] in multiset(init) || r[i] == x;
        if r[i] != x {
          assert r[i] in init;
        }
      }
    }
  }

  function SortBy<T>(xs: seq<T>, key: T -> int): (r: seq<T>)
    ensures SortedBy(r, key)
    ensures multiset(r) == multiset(xs)
  {
    if |xs| == 0 then []
    else
      assert xs == xs[..|xs| - 1] + [xs[|xs| - 1]];
      var s := SortBy(xs[..|xs| - 1], key);
      InsertLastSorted(s, xs[|xs| - 1], key);
      InsertLast(s, xs[|xs| - 1], key)
  }

  lemma SortByMembers<T>(xs: seq<T>, key: T -> int)
    ensures |SortBy(xs, key)| == |xs|
    ensures forall y :: y in SortBy(xs, key) <==> y in xs
  {
    var r := SortBy(xs, key);
    assert |r| == |multiset(r)| == |multiset(xs)| == |xs|;
    forall y ensures y in r <==> y in xs {
      assert y in r <==> y in multiset(r);
      assert y in xs <==> y in multiset(xs);
    }
  }

  /** Appending an element whose key is at least every other key appends it
      to the sorted result too. */
  lemma {:induction false} SortByAppendLargest<T>(xs: seq<T>, x: T, key: T -> int)
    requires forall y :: y in xs ==> key(y) <= key(x)
    ensures SortBy(xs + [x], key) == SortBy(xs, key) + [x]
  {
    var ys := xs + [x];
    assert ys[..|ys| - 1] == xs;
    assert ys[|ys| - 1] == x;
    var s := SortBy(xs, key);
    assert SortBy(ys, key) == InsertLast(s, x, key);
    SortByMembers(xs, key);
    if |s| > 0 {
      assert s[|s| - 1] in xs;
    }
  }

  lemma {:induction false} InsertLastHead<T>(xs: seq<T>, x: T, key: T -> int)
    requires SortedBy(xs, key)
    ensures InsertLast(xs, x, key)[0] == if |xs| == 0 || key(x) < key(xs[0]) then x else xs[0]
    decreases |xs|
  {
    if |xs| == 0 || key(xs[|xs| - 1]) <= key(x) {
    } else {
      var init := xs[..|xs| - 1];
      if |init| > 0 {
        InsertLastHead(init, x, key);
        assert init[0] == xs[0];
      }
    }
  }

  /** The head of the sorted sequence is the first element with the smallest key. */
  lemma {:induction false} SortByHead<T>(xs: seq<T>, key: T -> int) returns (i: int)
    requires |xs| > 0
    ensures IsFirstMinimum(xs, key, i)
    ensures SortBy(xs, key)[0] == xs[i]
    decreases |xs|
  {
    var n := |xs| - 1;
    var init := xs[..n];
    var x := xs[n];
    assert xs == init + [x];
    if n == 0 {
      i := 0;
    } else {
      var i' := SortByHead(init, key);
      var s := SortBy(init, key);
      SortByMembers(init, key);
      InsertLastHead(s, x, key);
      if key(x) < key(xs[i']) {
        i := n;
      } else {
        i := i';
      }
    }
  }

  /** `SortByHead` with the position left existential. */
  lemma SortByHeadExists<T>(xs: seq<T>, key: T -> int)
    requires |xs| > 0
    ensures exists i :: IsFirstMinimum(xs, key, i) && SortBy(xs, key)[0] == xs[i]
  {
    var i := SortByHead(xs, key);
  }
}

=== FILE: Validation.dfy ===
/** `validateContactInput`: at least one truthy field, then the email shape,
    then the phone shape checked after separators are stripped. Body fields
    are JSON values; only string fields are shape-checked. */
module Validation {
  import opened Wrappers

  /** A request-body field as parsed JSON (arrays fold into `Object`). */
  datatype JsValue = Undefined | Null | Bool(b: bool) | Number(n: int) | Str(s: string) | Object

  /** JavaScript truthiness; numbers are integers here, so NaN does not arise. */
  predicate Truthy(v: JsValue) {
    match v
    case Undefined => false
    case Null => false
    case Bool(b) => b
    case Number(n) => n != 0
    case Str(s) => s != ""
    case Object => true
  }

  /** `email && typeof email === 'string'`. */
  predicate IsTruthyString(v: JsValue) {
    v.Str? && v.s != ""
  }

  datatype ValidationError = MissingContactFields | InvalidEmail | InvalidPhoneNumber

  // ----- characters -----

  /** The `\s` class of ECMAScript regular expressions: WhiteSpace and
      LineTerminator code points. */
  predicate IsSpace(c: char) {
    var k := c as int;
    || k == 0x09 || k == 0x0A || k == 0x0B || k == 0x0C || k == 0x0D || k == 0x20
    || k == 0xA0 || k == 0x1680 || (0x2000 <= k <= 0x200A) || k == 0x2028 || k == 0x2029
    || k == 0x202F || k == 0x205F || k == 0x3000 || k == 0xFEFF
  }

  /** `\d` without the unicode flag: ASCII digits only. */
  predicate IsDigit(c: char) {
    '0' <= c <= '9'
  }

  /** `[^\s@]`. */
  predicate Plain(c: char) {
    !IsSpace(c) && c != '@'
  }

  predicate AllPlain(s: string) {
    forall k :: 0 <= k < |s| ==> Plain(s[k])
  }

  // ----- email -----

  /** `s` reads as local `@` left `.` right with `@` at `i` and `.` at `j`, all
      three parts non-empty runs of `[^\s@]`: one way the pattern
      `^[^\s@]+@[^\s@]+\.[^\s@]+$` can match. */
  predicate EmailSplit(s: string, i: int, j: int) {
    && 1 <= i && i + 2 <= j <= |s| - 2
    && s[i] == '@' && s[j] == '.'
    && AllPlain(s[..i]) && AllPlain(s[i + 1..j]) && AllPlain(s[j + 1..])
  }

  /** The language of `^[^\s@]+@[^\s@]+\.[^\s@]+$`. */
  ghost predicate EmailPattern(s: string) {
    exists i, j :: EmailSplit(s, i, j)
  }

  function FirstAt(s: string): (r: Option<nat>)
    ensures r.Some? ==> r.value < |s| && s[r.value] == '@' && forall k :: 0 <= k < r.value ==> s[k] != '@'
    ensures r.None? ==> forall k :: 0 <= k < |s| ==> s[k] != '@'
  {
    if |s| == 0 then None
    else if s[0] == '@' then Some(0)
    else match FirstAt(s[1..])
      case None => None
      case Some(k) => Some(k + 1)
  }

  /** The regular-expression test as a direct scan: one `@` after a non-empty
      local part, no whitespace, and a dot strictly inside the domain. */
  function ValidEmail(s: string): bool {
    match FirstAt(s)
    case None => false
    case Some(i) =>
      var domain := s[i + 1..];
      && i >= 1 && AllPlain(s[..i]) && AllPlain(domain)
      && |domain| >= 3 && '.' in domain[1..|domain| - 1]
  }

  lemma ValidEmailSound(s: string)
    requires ValidEmail(s)
    ensures EmailPattern(s)
  {
    var i := FirstAt(s).value;
    var domain := s[i + 1..];
    var k :| 0 <= k < |domain[1..|domain| - 1]| && domain[1..|domain| - 1][k] == '.';
    var j := i + 2 + k;
    assert s[j] == '.';
    assert s[i + 1..j] == domain[..k + 1];
    assert s[j + 1..] == domain[k + 2..];
    assert EmailSplit(s, i, j);
  }

  lemma ValidEmailComplete(s: string, i: int, j: int)
    requires EmailSplit(s, i, j)
    ensures ValidEmail(s)
  {
    assert forall k :: 0 <= k < i ==> s[..i][k] == s[k];
    assert FirstAt(s) == Some(i);
    var domain := s[i + 1..];
    forall k | 0 <= k < |domain| ensures Plain(domain[k]) {
      if i + 1 + k < j {
        assert domain[k] == s[i + 1..j][k];
      } else if i + 1 + k > j {
        assert domain[k] == s[j + 1..][k - (j - i)];
      }
    }
    assert domain[1..|domain| - 1][j - i - 2] == '.';
  }

  /** The scan accepts exactly the strings the email pattern matches. */
  lemma ValidEmailIsPattern(s: string)
    ensures ValidEmail(s) <==> EmailPattern(s)
  {
    if ValidEmail(s) {
      ValidEmailSound(s);
    }
    if EmailPattern(s) {
      var i, j :| EmailSplit(s, i, j);
      ValidEmailComplete(s, i, j);
    }
  }

  lemma EmailVerdict(v: JsValue)
    ensures v.Str? ==> (ValidEmail(v.s) <==> EmailPattern(v.s))
  {
    if v.Str? {
      ValidEmailIsPattern(v.s);
    }
  }

  // ----- phone -----

  /** The characters `[\s\-\(\)]` removed before the phone test. */
  predicate IsSeparator(c: char) {
    IsSpace(c) || c == '-' || c == '(' || c == ')'
  }

  /** `phoneNumber.replace(/[\s\-\(\)]/g, '')`. */
  function Strip(s: string): (r: string)
    ensures |r| <= |s|
    ensures forall k :: 0 <= k < |r| ==> !IsSeparator(r[k])
    ensures forall c :: c in r <==> c in s && !IsSeparator(c)
  {
    if |s| == 0 then ""
    else
      assert s == [s[0]] + s[1..];
      (if IsSeparator(s[0]) then "" else [s[0]]) + Strip(s[1..])
  }

  /** Stripping keeps every other character in order: it removes exactly the
      separators. */
  lemma {:induction false} StripIsFilter(s: string, t: string)
    ensures Strip(s + t) == Strip(s) + Strip(t)
    decreases |s|
  {
    if |s| > 0 {
      assert (s + t)[1..] == s[1..] + t;
      StripIsFilter(s[1..], t);
    } else {
      assert s + t == t;
    }
  }

  /** Stripping twice is stripping once. */
  lemma {:induction false} StripIdempotent(s: string)
    ensures Strip(Strip(s)) == Strip(s)
    decreases |s|
  {
    if |s| > 0 {
      var head := if IsSeparator(s[0]) then "" else [s[0]];
      StripIdempotent(s[1..]);
      StripIsFilter(head, Strip(s[1..]));
    }
  }

  /** `[1-9][\d]{0,15}`: one to sixteen ASCII digits, the first non-zero. */
  predicate DigitRun(d: string) {
    && 1 <= |d| <= 16
    && '1' <= d[0] <= '9'
    && forall k :: 0 <= k < |d| ==> IsDigit(d[k])
  }

  /** The language of `^[\+]?[1-9][\d]{0,15}$`. */
  ghost predicate PhonePattern(t: string) {
    DigitRun(t) || (|t| > 0 && t[0] == '+' && DigitRun(t[1..]))
  }

  /** The phone test on a candidate: drop one leading `+`, then expect a digit run. */
  function ValidPhone(s: string): (b: bool)
    ensures b <==> PhonePattern(Strip(s))
  {
    var t := Strip(s);
    var digits := if |t| > 0 && t[0] == '+' then t[1..] else t;
    DigitRun(digits)
  }

  /** An accepted phone number carries between one and sixteen digits and
      nothing but digits after an optional leading `+`. */
  lemma ValidPhoneDigits(s: string)
    requires ValidPhone(s)
    ensures var t := Strip(s);
      && 1 <= |t| <= 17
      && forall k :: 0 <= k < |t| ==> IsDigit(t[k]) || (k == 0 && t[k] == '+')
  {
  }

  /** Separators never change the verdict: a pre-stripped number is judged the same. */
  lemma ValidPhoneIgnoresSeparators(s: string)
    ensures ValidPhone(Strip(s)) == ValidPhone(s)
  {
    StripIdempotent(s);
  }

  // ----- the middleware -----

  /** `validateContactInput`: the missing-field check first, then the email
      format, then the phone format; non-string values skip the format checks. */
  function ValidateContactInput(email: JsValue, phoneNumber: JsValue): (r: Result<(), ValidationError>)
    ensures r == Failure(MissingContactFields) <==> !Truthy(email) && !Truthy(phoneNumber)
    ensures r == Failure(InvalidEmail) <==>
      && (Truthy(email) || Truthy(phoneNumber))
      && IsTruthyString(email) && !EmailPattern(email.s)
    ensures r == Failure(InvalidPhoneNumber) <==>
      && (Truthy(email) || Truthy(phoneNumber))
      && (IsTruthyString(email) ==> EmailPattern(email.s))
      && IsTruthyString(phoneNumber) && !PhonePattern(Strip(phoneNumber.s))
    ensures r.Success? <==>
      && (Truthy(email) || Truthy(phoneNumber))
      && (IsTruthyString(email) ==> EmailPattern(email.s))
      && (IsTruthyString(phoneNumber) ==> PhonePattern(Strip(phoneNumber.s)))
  {
    EmailVerdict(email);
    if !Truthy(email) && !Truthy(phoneNumber) then Failure(MissingContactFields)
    else if IsTruthyString(email) && !ValidEmail(email.s) then Failure(InvalidEmail)
    else if IsTruthyString(phoneNumber) && !ValidPhone(phoneNumber.s) then Failure(InvalidPhoneNumber)
    else Success(())
  }

  /** Values that are not strings are never shape-checked: whenever a field is
      truthy and neither is a string, the input passes. */
  lemma NonStringsPassThrough(email: JsValue, phoneNumber: JsValue)
    requires !email.Str? && !phoneNumber.Str?
    ensures ValidateContactInput(email, phoneNumber).Success? <==> Truthy(email) || Truthy(phoneNumber)
  {
  }
}

=== FILE: Wrappers.dfy ===
/** Optional values and failure-carrying results, usable with `:-`. */
module Wrappers {

  /** A value that may be absent: the model of a nullable field. */
  datatype Option<+T> = None | Some(value: T)

  /** The outcome of an operation that can fail with an error of type E. */
  datatype Result<+R, +E> = Success(value: R) | Failure(error: E) {

    predicate IsFailure() {
      Failure?
    }

    function PropagateFailure<U>(): Result<U, E>
      requires Failure?
    {
      Failure(error)
    }

    function Extract(): R
      requires Success?
    {
      value
    }
  }
}
